=== FILE: README.md ===
# Field-service generation rules of the sale order

This project models, in Dafny, the `sale.order` extension of the Odoo
module `fieldservice_sale`. That extension links sale orders to
field-service orders (`fsm.order`). The model covers:

- which service orders count as linked to a sale (`fsm_order_ids`, `fsm_order_count`);
- how a service location is proposed when the customer changes (`onchange_partner_id`);
- the values an order-level service order is seeded with (`_field_create_fsm_order_prepare_values`);
- the creation of one service order per sale, with a message posted on both records (`_field_create_fsm_order`);
- the find-or-create step that prevents duplicate order-level service orders (`_field_find_fsm_order`);
- the location guard of the confirmation (`_action_confirm`);
- the three-way choice of the "view field-service orders" button (`action_view_fsm_order`).

The database is a `Store`: a sequence of service orders plus a sequence of
posted messages. A search returns the matching records in store order.
Operations are pure functions that take a store and return a new store
with their result. The recordsets built with `|` are sequences of ids without
repetition, and `|` is `Recordsets.Union`. A list of sale orders may
repeat one. A new record gets the next id beyond every
stored one.

`_field_create_fsm_order_prepare_values` is an override point: other
modules extend it. The creation and finding functions therefore take the
values hook as a parameter of type `Creation.ValuesHook`. This is any
function from a sale order to values that carry that sale's id. The base
hook is `SeedValues.PrepareValues`, and the facts about seed values are
proved about it.

Modules:

- `Records`: the entities (sale orders, lines, products, templates, partners, locations, service orders, messages) and small sequence facts.
- `Recordsets`: recordsets as duplicate-free id sequences.
- `Repository`: the store, search domains and record creation.
- `Linkage`: the computed fields.
- `LocationInference`: the onchange.
- `SeedValues`: the prepared values.
- `Creation` and `CreationFacts`: creation and what it guarantees.
- `Finding` and `FindingFacts`: find-or-create and what it guarantees.
- `Confirmation`: the confirmation guard, as written and as intended.
- `Navigation`: the view button.

## Model

| member | source | states |
|---|---|---|
| Linkage.ComputeFsmOrderIds | fieldservice_sale/models/sale_order.py:25-34 | The computed recordset has no repetition. It holds exactly the ids of stored service orders that were created for one of the sale's lines or whose sale is the order. The count is the number of distinct ids in it. |
| Linkage.CountIsNumberOfLinkedOrders | fieldservice_sale/models/sale_order.py:26-34 | When store ids are unique, the count equals the number of stored records linked to the sale, counted one by one. |
| Linkage.BothKindsLinked | fieldservice_sale/models/sale_order.py:29-32 | A line-level service order of one of the sale's lines and an order-level one of the sale are both in the computed recordset. |
| LocationInference.SearchLocations | fieldservice_sale/models/sale_order.py:53 | The search keeps exactly the locations owned by a candidate. Its first hit is the first candidate location of the list. |
| LocationInference.InferLocation | fieldservice_sale/models/sale_order.py:53-54 | No location is proposed iff no location has a candidate owner. Otherwise the first location with a candidate owner is proposed. |
| LocationInference.OnchangePartnerId | fieldservice_sale/models/sale_order.py:36-54 | After the base onchange, only the service location changes. It is the first location of the list owned by a candidate: the customer alone when the customer is flagged, otherwise the customer, the shipping address or the commercial partner. It is empty iff no location qualifies. |
| LocationInference.CommercialPartnerLocationFound | fieldservice_sale/models/sale_order.py:44-54 | An unflagged customer gets the commercial partner's location when that is the only candidate. |
| LocationInference.FlaggedCustomerIgnoresOtherOwners | fieldservice_sale/models/sale_order.py:51-54 | A flagged customer that owns no location gets none, whatever the shipping address or commercial partner own. |
| SeedValues.SaleTrackedLines | fieldservice_sale/models/sale_order.py:58-60 | The filtered lines are exactly the lines whose product tracks per sale. |
| SeedValues.MappedTemplates | fieldservice_sale/models/sale_order.py:61 | The mapped templates have no repetition. A template is among them iff some line carries it. |
| SeedValues.SaleTrackedLinesAppend | fieldservice_sale/models/sale_order.py:58-60 | Filtering a concatenation gives the filtered first part followed by the filtered second part, so the kept lines stay in order and each appears once. |
| SeedValues.SaleTrackedLinesOfOne | fieldservice_sale/models/sale_order.py:58-60 | A single line is kept iff its product tracks per sale. |
| SeedValues.MappedTemplatesOrder | fieldservice_sale/models/sale_order.py:61 | The mapped templates come in the order of the first lines that carry them. |
| SeedValues.Categories | fieldservice_sale/models/sale_order.py:64-68 | A category is in the union iff some template holds it. |
| SeedValues.SeedTemplates | fieldservice_sale/models/sale_order.py:58-61 | The seeding templates are distinct. A template is among them iff some line tracked per sale carries it. |
| SeedValues.SeedTemplatesOrder | fieldservice_sale/models/sale_order.py:58-61 | The seeding templates come in the order of the first tracked lines that carry them, which fixes the order of the notes. |
| SeedValues.PrepareValues | fieldservice_sale/models/sale_order.py:56-79 | The values carry the order's id, its company and its expected date as both early request and scheduled start. They carry the location and its directions, or neither when no location is set. Their categories are exactly those of the templates of lines tracked per sale. |
| SeedValues.UntrackedLineIgnored | fieldservice_sale/models/sale_order.py:58-60 | Adding a line whose product is not tracked per sale leaves the values unchanged. |
| SeedValues.SharedTemplateCountedOnce | fieldservice_sale/models/sale_order.py:61-68 | Adding a tracked line whose template is already present leaves the values unchanged, so a shared template counts once. |
| SeedValues.TrackedLineWithoutTemplateIgnored | fieldservice_sale/models/sale_order.py:58-61 | Adding a line tracked per sale whose product has no template leaves the values unchanged. |
| SeedValues.EmptyOrderValues | fieldservice_sale/models/sale_order.py:62-76 | An order without lines gets empty notes, a zero duration and no category. |
| SeedValues.NewTemplateAggregated | fieldservice_sale/models/sale_order.py:61-79 | Adding a tracked line with a new template appends its instructions to the notes, adds its duration and unites its categories. Nothing else changes. |
| SeedValues.TwoLinesSeedTwoTemplates | fieldservice_sale/models/sale_order.py:58-61 | Two tracked lines with different templates seed those two templates, in line order. |
| SeedValues.TwoTemplatesExample | fieldservice_sale/models/sale_order.py:62-76 | Templates of 1.5 h with "A" and 2.0 h with "B" give 3.5 h, notes "AB" and both categories. |
| Repository.Search | fieldservice_sale/models/sale_order.py:121-123 | A search returns exactly the stored records matching the domain, and no more records than are stored. |
| Repository.SearchAppend | fieldservice_sale/models/sale_order.py:121-123 | Searching a store that grew by appending returns the old hits followed by the new ones. |
| Repository.CreateRecord | fieldservice_sale/models/sale_order.py:89-90 | Creation appends one record seeded with the given values, under the store's next id, and posts no message. |
| Recordsets.Union | fieldservice_sale/models/sale_order.py:29-32 | The union of two recordsets holds exactly the ids of either. It keeps the first operand as a prefix and adds no repetition. |
| Creation.CreateOne | fieldservice_sale/models/sale_order.py:88-111 | One iteration appends one new order-level service order of the sale. It posts exactly two messages linking the sale and the new order. |
| Creation.CreateFsmOrders | fieldservice_sale/models/sale_order.py:81-112 | One service order and two messages are added per input sale. The result's keys are exactly the input sale ids. |
| CreationFacts.CreateExtends | fieldservice_sale/models/sale_order.py:86-112 | Creation only appends: the old orders and messages are a prefix of the new ones. |
| CreationFacts.CreatedFresh | fieldservice_sale/models/sale_order.py:90 | Every created id exceeds every old id, and unique ids stay unique. |
| CreationFacts.CreatedPerSale | fieldservice_sale/models/sale_order.py:89-90 | The i-th created service order is order-level for the i-th sale and seeded with that sale's prepared values. |
| CreationFacts.CreatedMessages | fieldservice_sale/models/sale_order.py:91-110 | For the i-th sale, the two messages at its positions refer to the sale and its new service order, one posted on each. |
| CreationFacts.CreatedMapping | fieldservice_sale/models/sale_order.py:111 | Each sale id in the result maps to a service order created at the position of a sale with that id. |
| Finding.ExistingMapping | fieldservice_sale/models/sale_order.py:120-126 | A sale id is in the mapping iff it is an input sale with a stored order-level service order. It then maps to such a stored order. |
| Finding.FindStep | fieldservice_sale/models/sale_order.py:131-135 | A sale the mapping covers gets its mapped service order and leaves the store unchanged. Any other sale gets a new order-level service order under the next id. That order is seeded with the sale's prepared values, and the two cross-reference messages of the sale and the new order are posted. |
| Finding.FindFsmOrders | fieldservice_sale/models/sale_order.py:114-136 | Every input sale gets an entry. The store only grows. |
| FindingFacts.FindFsmOrdersResolves | fieldservice_sale/models/sale_order.py:121-136 | Each entry is an order-level service order of its sale. It is reused from the old store when one existed. Otherwise it is freshly created and seeded with the prepared values of a sale of that id. Every new record is order-level for an input sale that had none. |
| FindingFacts.FindFsmOrdersCount | fieldservice_sale/models/sale_order.py:131-134 | Exactly one record and two messages are added per input sale that the search did not cover. |
| FindingFacts.FindOnCoveredStore | fieldservice_sale/models/sale_order.py:128-136 | When every input sale already has a stored order-level service order, the store comes back unchanged: nothing is created and nothing is posted. |
| FindingFacts.FindIsIdempotent | fieldservice_sale/models/sale_order.py:129-134 | A second call on the resulting store returns the same store and the same mapping, so it creates nothing. |
| FindingFacts.RepeatedSaleCreatesTwo | fieldservice_sale/models/sale_order.py:121-135 | A sale listed twice that has no order-level service order gets two new ones, because the mapping is read before the loop. |
| FindingFacts.FindKeepsAtMostOne | fieldservice_sale/models/sale_order.py:114-136 | For distinct sales, a store with at most one order-level service order per sale keeps that property. |
| FindingFacts.FindReturnsTheOnlyOrderLevel | fieldservice_sale/models/sale_order.py:114-136 | Afterwards, any order-level service order of an input sale is the one returned for it. |
| FindingFacts.LookupIgnoresLineLevel | fieldservice_sale/models/sale_order.py:121-123 | Adding a line-level service order does not change what the search finds. |
| Confirmation.ActionConfirmAsWritten | fieldservice_sale/models/sale_order.py:138-147 | As written, confirmation fails with "FSM Location must be set" iff no location is set and some line either has no product or has a field-service product. Otherwise it returns the base result. The store goes to line generation when such a line is present, and is untouched when every line has a product tracked "no". |
| Confirmation.ActionConfirm | fieldservice_sale/models/sale_order.py:138-147 | Confirmation fails with "FSM Location must be set" iff no location is set and a field-service line is present. Otherwise it returns the base result. The store is untouched without a field-service line and handed to line generation with one. |
| Confirmation.GuardsAgreeWhenEveryLineHasProduct | fieldservice_sale/models/sale_order.py:141-145 | When every line has a product, both guards and both confirmations agree. |
| Confirmation.SectionLineBlocksConfirm | fieldservice_sale/models/sale_order.py:141-145 | An order with no location and a single section line fails as written but confirms with the intended guard. |
| Confirmation.ConfirmedSaleTrackedOrderHasLocation | fieldservice_sale/models/sale_order.py:138-147 | A confirmed order with a line tracked per sale has a location, and its prepared values carry it. |
| Navigation.MappedFsmOrderIds | fieldservice_sale/models/sale_order.py:150 | Mapping the computed field over several sales yields, without repetition, exactly the ids linked to any of them. |
| Navigation.ActionViewFsmOrder | fieldservice_sale/models/sale_order.py:149-159 | With no linked service order the window closes. With exactly one, its form opens on that id. With more, a list opens restricted to exactly the linked ids. |
| Navigation.ViewMatchesComputedField | fieldservice_sale/models/sale_order.py:149-159 | On one sale, the button's choice follows the computed count, and it shows that sale's computed recordset. |

## Left out

- The ORM itself is not modelled: field declarations, `@api.depends`/`@api.onchange`, `sudo()`, `ensure_one()`, and the lookup of the window action by XML id. Records are plain values in a sequence.
- Search order is store order. Odoo sorts search results by the model's default order, so "first location" means first in the given sequence.
- Message bodies, their HTML and their translation are left out. Each message is a `Post` naming the record it is posted on and the record it refers to.
- The base `onchange_partner_id` is a function parameter. So is the base `_action_confirm`, whose result is a value parameter. The line-level `_field_service_generation`, whose code is not part of this model, is also a function parameter.
- `_field_create_fsm_order_prepare_values` can be overridden by other modules, so creation and finding take it as the parameter `prepare`, of type `Creation.ValuesHook`. The only property assumed of a hook is that it sets the sale id. `SeedValues.PrepareValues` is the base implementation.
- OnchangePartnerId: the customer and the shipping address are always set, so clearing the customer (which makes the search compare against empty ids) is not modelled.
- `onchange_partner_id` is modelled only as the choice of the service location. The rest of the base onchange is whatever `base` returns.
- `_action_confirm` is modelled on a single sale order, since its location check reads `self.fsm_location_id` as a singleton.
- Transaction rollback after the `ValidationError` is represented by returning an error and no store. Concurrent confirmations are not modelled.
- Durations are exact `real` numbers, not floating point.
- `mapped` removes duplicate templates by value rather than by database identity.
- New ids are the largest stored id plus one. The database sequence is not modelled.
- FindingFacts.FindIsIdempotent: for a sale listed twice without an order-level service order, the first call returns the later of its two new records. The second call returns the same record only because the search lists records in creation order and the mapping keeps the last hit. Under a default order of service orders that lists the earlier record after the later one, the source would return the earlier record instead.
- FindingFacts.FindKeepsAtMostOne: requires the sales to have distinct ids, because for a sale listed twice the source creates a duplicate (`FindingFacts.RepeatedSaleCreatesTwo`).
- FindingFacts.FindReturnsTheOnlyOrderLevel: requires distinct sale ids for the same reason.

## Findings

| source | as written | input that shows it | evidently intended | confidence | as-written member | corrected member |
|---|---|---|---|---|---|---|
| fieldservice_sale/models/sale_order.py:141-145 | `sol.product_id.field_service_tracking != "no"` is true for a line without a product, since its tracking value is empty | An order with no service location whose only line is a section or note line (no product): confirmation raises "FSM Location must be set" | Only lines selling a product whose tracking mode is not "no" require a location | medium, not executed | Confirmation.ActionConfirmAsWritten (shown by Confirmation.SectionLineBlocksConfirm) | Confirmation.ActionConfirm |

=== FILE: confirmation.dfy ===
/**
 * Confirmation of a sale order: after the base confirmation, an order
 * with a field-service line must have a service location, and its lines
 * are handed to the line-level generation.
 *
 * The guard is given twice. `TriggersGenerationAsWritten` reads the
 * tracking mode of a line without a product (a section or note line) as
 * "not no", so such a line alone demands a location.
 * `TriggersGeneration` asks for a product whose tracking mode is not
 * "no"; `ActionConfirm` uses it.
 */
module Confirmation {

  import opened Records
  import opened Repository
  import opened SeedValues

  datatype ValidationError = ValidationError(message: string)

  const LocationRequired: string := "FSM Location must be set"

  /** `sol.product_id.field_service_tracking`: no value when the line has no product. */
  function TrackingOf(l: SaleLine): Option<Tracking> {
    match l.product
    case None => None
    case Some(p) => Some(p.tracking)
  }

  /** The line's product has a tracking mode other than "no". */
  predicate IsServiceLine(l: SaleLine) {
    l.product.Some? && l.product.value.tracking != No
  }

  /** The guard as written: some line's tracking value differs from "no", an absent one included. */
  predicate TriggersGenerationAsWritten(so: SaleOrder) {
    exists l :: l in so.lines && TrackingOf(l) != Some(No)
  }

  /** The guard as intended: some line sells a product that is tracked for field service. */
  predicate TriggersGeneration(so: SaleOrder) {
    exists l :: l in so.lines && IsServiceLine(l)
  }

  /**
   * `_action_confirm` as written. `baseResult` is what the base
   * confirmation returned; `generate` stands for the line-level
   * `_field_service_generation`. An error discards every change.
   */
  function ActionConfirmAsWritten<R>(so: SaleOrder, baseResult: R, st: Store,
                                    generate: (seq<SaleLine>, Store) -> Store): (r: Result<(R, Store), ValidationError>)
    ensures r.Err? <==> so.fsmLocation.None? && exists l :: l in so.lines && (l.product.None? || IsServiceLine(l))
    ensures r.Err? ==> r.error.message == LocationRequired
    ensures r.Ok? ==> r.value.0 == baseResult
    ensures r.Ok? && (forall l :: l in so.lines ==> l.product.Some? && l.product.value.tracking == No) ==> r.value.1 == st
    ensures r.Ok? && (exists l :: l in so.lines && (l.product.None? || IsServiceLine(l))) ==>
      r.value.1 == generate(so.lines, st)
  {
    if TriggersGenerationAsWritten(so) then
      if so.fsmLocation.None? then Err(ValidationError(LocationRequired))
      else Ok((baseResult, generate(so.lines, st)))
    else Ok((baseResult, st))
  }

  /**
   * `_action_confirm` with the intended guard: it fails exactly when a
   * field-service line is present and no location is set; otherwise it
   * returns the base result and, when a field-service line is present,
   * the store after line-level generation.
   */
  function ActionConfirm<R>(so: SaleOrder, baseResult: R, st: Store,
                            generate: (seq<SaleLine>, Store) -> Store): (r: Result<(R, Store), ValidationError>)
    ensures r.Err? <==> so.fsmLocation.None? && exists l :: l in so.lines && IsServiceLine(l)
    ensures r.Err? ==> r.error.message == LocationRequired
    ensures r.Ok? ==> r.value.0 == baseResult
    ensures r.Ok? && (forall l :: l in so.lines ==> !IsServiceLine(l)) ==> r.value.1 == st
    ensures r.Ok? && (exists l :: l in so.lines && IsServiceLine(l)) ==> r.value.1 == generate(so.lines, st)
  {
    if TriggersGeneration(so) then
      if so.fsmLocation.None? then Err(ValidationError(LocationRequired))
      else Ok((baseResult, generate(so.lines, st)))
    else Ok((baseResult, st))
  }

  /** On orders where every line has a product, the two guards agree, and so do both confirmations. */
  lemma GuardsAgreeWhenEveryLineHasProduct<R>(so: SaleOrder, baseResult: R, st: Store,
                                               generate: (seq<SaleLine>, Store) -> Store)
    requires forall l :: l in so.lines ==> l.product.Some?
    ensures TriggersGenerationAsWritten(so) <==> TriggersGeneration(so)
    ensures ActionConfirmAsWritten(so, baseResult, st, generate) == ActionConfirm(so, baseResult, st, generate)
  {
    if TriggersGenerationAsWritten(so) {
      var l :| l in so.lines && TrackingOf(l) != Some(No);
      assert IsServiceLine(l);
    }
    if TriggersGeneration(so) {
      var l :| l in so.lines && IsServiceLine(l);
      assert TrackingOf(l) != Some(No);
    }
  }

  /**
   * As written, an order with no location whose only line is a section
   * line (no product) cannot be confirmed; with the intended guard it
   * confirms and leaves the store as it was.
   */
  lemma SectionLineBlocksConfirm(so: SaleOrder, st: Store, generate: (seq<SaleLine>, Store) -> Store)
    requires so.fsmLocation.None?
    requires so.lines == [SaleLine(1, None)]
    ensures ActionConfirmAsWritten(so, true, st, generate) == Err(ValidationError(LocationRequired))
    ensures ActionConfirm(so, true, st, generate) == Ok((true, st))
  {
    assert so.lines[0] in so.lines;
  }

  /**
   * A confirmed order with a line tracked per sale has a service
   * location, so the values prepared for its order-level service order
   * carry that location.
   */
  lemma ConfirmedSaleTrackedOrderHasLocation<R>(so: SaleOrder, baseResult: R, st: Store,
                                                generate: (seq<SaleLine>, Store) -> Store, l: SaleLine)
    requires l in so.lines && TrackedBySale(l)
    requires ActionConfirm(so, baseResult, st, generate).Ok?
    ensures so.fsmLocation.Some?
    ensures PrepareValues(so).locationId == Some(so.fsmLocation.value.id)
  {
    assert IsServiceLine(l);
  }
}

=== FILE: creation.dfy ===
/**
 * Creation of order-level field-service orders for sale orders, as
 * `_field_create_fsm_order` does it: one new record per sale order,
 * seeded from the prepared values, and a message on both records.
 */
module Creation {

  import opened Records
  import opened Repository
  import SeedValues

  /**
   * The values hook `_field_create_fsm_order_prepare_values`, or an
   * override of it: whatever else it fills in, it links the new record to
   * the sale order. `SeedValues.PrepareValues` is the hook of this module.
   */
  type ValuesHook = f: SaleOrder -> FsmValues | forall so :: f(so).saleId == so.id
    witness SeedValues.PrepareValues

  /** `b` extends `a`. */
  predicate Extends<T(==)>(a: seq<T>, b: seq<T>) {
    |a| <= |b| && b[..|a|] == a
  }

  /** A sequence that extends `a` is `a` followed by the rest. */
  lemma ExtendsSplit<T>(a: seq<T>, b: seq<T>)
    requires Extends(a, b)
    ensures b == a + b[|a|..]
  {
  }

  /** The two messages that cross-reference sale `saleId` and service order `fsmId`. */
  function CrossReference(saleId: Id, fsmId: Id): seq<Post> {
    [Post(SaleModel, saleId, FsmModel, fsmId), Post(FsmModel, fsmId, SaleModel, saleId)]
  }

  /**
   * One iteration of `_field_create_fsm_order`: creates the service order
   * of `so` from its prepared values and posts a message on both records.
   */
  function CreateOne(so: SaleOrder, st: Store, prepare: ValuesHook): (r: (Store, ServiceOrder))
    ensures r.0.orders == st.orders + [r.1]
    ensures r.0.posts == st.posts + CrossReference(so.id, r.1.id)
    ensures IsOrderLevelOf(r.1, so.id)
    ensures r.1.id == NextId(st)
  {
    var created := CreateRecord(st, prepare(so));
    (created.0.(posts := created.0.posts + CrossReference(so.id, created.1.id)), created.1)
  }

  /**
   * `_field_create_fsm_order`: for each sale order in turn, creates one
   * service order and maps the sale id to it.
   */
  function CreateFsmOrders(sales: seq<SaleOrder>, st: Store, prepare: ValuesHook): (r: (Store, map<Id, ServiceOrder>))
    ensures |r.0.orders| == |st.orders| + |sales|
    ensures |r.0.posts| == |st.posts| + 2 * |sales|
    ensures r.1.Keys == SaleIds(sales)
  {
    if |sales| == 0 then (st, map[])
    else
      var init := sales[..|sales| - 1];
      var so := sales[|sales| - 1];
      assert sales == init + [so];
      var prev := CreateFsmOrders(init, st, prepare);
      var step := CreateOne(so, prev.0, prepare);
      (step.0, prev.1[so.id := step.1])
  }

  /** `_field_create_fsm_order` on a non-empty list: the earlier sales, then one step for the last. */
  lemma CreateLast(sales: seq<SaleOrder>, st: Store, prepare: ValuesHook)
    requires |sales| > 0
    ensures var prev := CreateFsmOrders(sales[..|sales| - 1], st, prepare);
            var step := CreateOne(sales[|sales| - 1], prev.0, prepare);
            CreateFsmOrders(sales, st, prepare) == (step.0, prev.1[sales[|sales| - 1].id := step.1])
  {
  }

  /** The store after `_field_create_fsm_order` on a non-empty list: one creation step after the earlier sales. */
  lemma CreateLastStore(sales: seq<SaleOrder>, st: Store, prepare: ValuesHook)
    requires |sales| > 0
    ensures var n := |sales| - 1;
            CreateFsmOrders(sales, st, prepare).0 == CreateOne(sales[n], CreateFsmOrders(sales[..n], st, prepare).0, prepare).0
  {
    CreateLast(sales, st, prepare);
  }
}

=== FILE: creation_facts.dfy ===
/**
 * What `_field_create_fsm_order` guarantees: it only appends, new ids are
 * fresh, the i-th new record and the i-th pair of messages belong to the
 * i-th sale order, and the returned map points at those records.
 */
module CreationFacts {

  import opened Records
  import opened Repository
  import opened Creation

  /** The record one creation step adds is seeded from the prepared values of its sale. */
  lemma CreateOneSeeds(so: SaleOrder, st: Store, prepare: ValuesHook)
    ensures Seeds(CreateOne(so, st, prepare).1, prepare(so))
  {
  }

  /** The records of `after` beyond `before` have ids above every record of `before`. */
  predicate FreshBeyond(before: seq<ServiceOrder>, after: seq<ServiceOrder>) {
    forall i, j :: 0 <= i < |before| <= j < |after| ==> before[i].id < after[j].id
  }

  /** Appending a record with an id above all others keeps the new ids fresh and unique. */
  lemma GrowFresh(before: seq<ServiceOrder>, mid: seq<ServiceOrder>, o: ServiceOrder)
    requires Extends(before, mid) && FreshBeyond(before, mid)
    requires UniqueIds(before) ==> UniqueIds(mid)
    requires forall k :: 0 <= k < |mid| ==> mid[k].id < o.id
    ensures Extends(before, mid + [o]) && FreshBeyond(before, mid + [o])
    ensures UniqueIds(before) ==> UniqueIds(mid + [o])
  {
    var after := mid + [o];
    assert forall i :: 0 <= i < |before| ==> before[i] == mid[i];
    forall i, j | 0 <= i < |before| <= j < |after|
      ensures before[i].id < after[j].id
    {
      if j < |mid| {
        assert after[j] == mid[j];
      }
    }
    if UniqueIds(before) {
      AppendFresh(mid, o);
    }
  }

  /** `_field_create_fsm_order` only appends: records and messages already stored stay as they were. */
  lemma {:induction false} CreateExtends(sales: seq<SaleOrder>, st: Store, prepare: ValuesHook)
    ensures Extends(st.orders, CreateFsmOrders(sales, st, prepare).0.orders)
    ensures Extends(st.posts, CreateFsmOrders(sales, st, prepare).0.posts)
  {
    if |sales| > 0 {
      var n := |sales| - 1;
      var prev := CreateFsmOrders(sales[..n], st, prepare).0;
      CreateExtends(sales[..n], st, prepare);
      CreateLastStore(sales, st, prepare);
      var step := CreateOne(sales[n], prev, prepare);
      assert step.0.orders[..|st.orders|] == prev.orders[..|st.orders|];
      assert step.0.posts[..|st.posts|] == prev.posts[..|st.posts|];
    }
  }

  /** New service orders get ids above every existing id, so ids stay unique. */
  lemma {:induction false} CreatedFresh(sales: seq<SaleOrder>, st: Store, prepare: ValuesHook)
    ensures FreshBeyond(st.orders, CreateFsmOrders(sales, st, prepare).0.orders)
    ensures UniqueIds(st.orders) ==> UniqueIds(CreateFsmOrders(sales, st, prepare).0.orders)
  {
    if |sales| > 0 {
      var init := sales[..|sales| - 1];
      CreatedFresh(init, st, prepare);
      CreateLast(sales, st, prepare);
      var prev := CreateFsmOrders(init, st, prepare);
      var step := CreateOne(sales[|sales| - 1], prev.0, prepare);
      CreateExtends(init, st, prepare);
      NextIdIsFresh(prev.0);
      GrowFresh(st.orders, prev.0.orders, step.1);
    }
  }

  /** The i-th new service order is seeded from the i-th sale order and is order-level for it. */
  lemma {:induction false} CreatedPerSale(sales: seq<SaleOrder>, st: Store, i: nat, prepare: ValuesHook)
    requires i < |sales|
    ensures var o := CreateFsmOrders(sales, st, prepare).0.orders[|st.orders| + i];
            Seeds(o, prepare(sales[i])) && IsOrderLevelOf(o, sales[i].id)
  {
    var init := sales[..|sales| - 1];
    CreateLast(sales, st, prepare);
    var prev := CreateFsmOrders(init, st, prepare);
    var step := CreateOne(sales[|sales| - 1], prev.0, prepare);
    assert step.0.orders == prev.0.orders + [step.1];
    if i < |sales| - 1 {
      CreatedPerSale(init, st, i, prepare);
      assert init[i] == sales[i];
      assert step.0.orders[|st.orders| + i] == prev.0.orders[|st.orders| + i];
    } else {
      assert step.0.orders[|st.orders| + i] == step.1;
      CreateOneSeeds(sales[|sales| - 1], prev.0, prepare);
    }
  }

  /**
   * The i-th pair of new messages cross-references the i-th sale and its
   * new service order: first the message on the sale, then the one on the
   * service order.
   */
  lemma {:induction false} CreatedMessages(sales: seq<SaleOrder>, st: Store, i: nat, prepare: ValuesHook)
    requires i < |sales|
    ensures var st' := CreateFsmOrders(sales, st, prepare).0;
            var p := |st.posts| + 2 * i;
            var fsmId := st'.orders[|st.orders| + i].id;
            && st'.posts[p] == Post(SaleModel, sales[i].id, FsmModel, fsmId)
            && st'.posts[p + 1] == Post(FsmModel, fsmId, SaleModel, sales[i].id)
  {
    var n := |sales| - 1;
    if i < n {
      var init := sales[..n];
      CreatedMessages(init, st, i, prepare);
      assert init[i] == sales[i];
      CreatedOrderKept(sales, st, i, prepare);
      CreatedPostKept(sales, st, |st.posts| + 2 * i, prepare);
      CreatedPostKept(sales, st, |st.posts| + 2 * i + 1, prepare);
    } else {
      CreatedMessagesLast(sales, st, prepare);
    }
  }

  /** The record of an earlier sale is untouched by the step of the last one. */
  lemma CreatedOrderKept(sales: seq<SaleOrder>, st: Store, i: nat, prepare: ValuesHook)
    requires i < |sales| - 1
    ensures var prev := CreateFsmOrders(sales[..|sales| - 1], st, prepare).0;
            CreateFsmOrders(sales, st, prepare).0.orders[|st.orders| + i] == prev.orders[|st.orders| + i]
  {
    CreateLastStore(sales, st, prepare);
  }

  /** A message posted before the step of the last sale is untouched by it. */
  lemma CreatedPostKept(sales: seq<SaleOrder>, st: Store, j: nat, prepare: ValuesHook)
    requires |sales| > 0
    requires j < |st.posts| + 2 * (|sales| - 1)
    ensures var prev := CreateFsmOrders(sales[..|sales| - 1], st, prepare).0;
            CreateFsmOrders(sales, st, prepare).0.posts[j] == prev.posts[j]
  {
    CreateLastStore(sales, st, prepare);
  }

  /** The messages of the last sale cross-reference it and its new service order. */
  lemma CreatedMessagesLast(sales: seq<SaleOrder>, st: Store, prepare: ValuesHook)
    requires |sales| > 0
    ensures var n := |sales| - 1;
            var st' := CreateFsmOrders(sales, st, prepare).0;
            var p := |st.posts| + 2 * n;
            var fsmId := st'.orders[|st.orders| + n].id;
            && st'.posts[p] == Post(SaleModel, sales[n].id, FsmModel, fsmId)
            && st'.posts[p + 1] == Post(FsmModel, fsmId, SaleModel, sales[n].id)
  {
    CreateLastStore(sales, st, prepare);
  }

  /** The map of `_field_create_fsm_order` sends each sale id to a service order created for that sale. */
  lemma {:induction false} CreatedMapping(sales: seq<SaleOrder>, st: Store, prepare: ValuesHook)
    ensures var r := CreateFsmOrders(sales, st, prepare);
            forall id :: id in r.1 ==>
              exists i :: 0 <= i < |sales| && sales[i].id == id && r.1[id] == r.0.orders[|st.orders| + i]
  {
    if |sales| > 0 {
      var init := sales[..|sales| - 1];
      CreatedMapping(init, st, prepare);
      CreateLast(sales, st, prepare);
      var prev := CreateFsmOrders(init, st, prepare);
      var step := CreateOne(sales[|sales| - 1], prev.0, prepare);
      var r := CreateFsmOrders(sales, st, prepare);
      assert r.0.orders == prev.0.orders + [step.1];
      forall id | id in r.1
        ensures exists i :: 0 <= i < |sales| && sales[i].id == id && r.1[id] == r.0.orders[|st.orders| + i]
      {
        if id == sales[|sales| - 1].id {
          assert r.1[id] == r.0.orders[|st.orders| + |sales| - 1];
        } else {
          var i :| 0 <= i < |init| && init[i].id == id && prev.1[id] == prev.0.orders[|st.orders| + i];
          assert sales[i] == init[i];
          assert r.0.orders[|st.orders| + i] == prev.0.orders[|st.orders| + i];
        }
      }
    }
  }
}

=== FILE: finding.dfy ===
/**
 * The find-or-create step `_field_find_fsm_order`: one search for the
 * order-level service orders of all the sale orders, then creation for
 * each sale order that has none, so that confirming, cancelling and
 * re-confirming creates no duplicate.
 */
module Finding {

  import opened Records
  import opened Repository
  import opened Creation

  /** `{fsm_order.sale_id.id: fsm_order for fsm_order in found}`: a later hit overrides an earlier one. */
  function OrderLevelMapping(found: seq<ServiceOrder>): (m: map<Id, ServiceOrder>)
    ensures forall id :: id in m ==> m[id] in found && m[id].saleId == Some(id)
    ensures forall o :: o in found && o.saleId.Some? ==> o.saleId.value in m
  {
    if |found| == 0 then map[]
    else
      var init := found[..|found| - 1];
      var o := found[|found| - 1];
      assert found == init + [o];
      var m := OrderLevelMapping(init);
      if o.saleId.Some? then m[o.saleId.value := o] else m
  }

  /** How many of `sales` the mapping does not cover, counted by position. */
  function Uncovered(sales: seq<SaleOrder>, mapping: map<Id, ServiceOrder>): nat {
    if |sales| == 0 then 0
    else Uncovered(sales[..|sales| - 1], mapping) + (if sales[|sales| - 1].id in mapping then 0 else 1)
  }

  /** One iteration of the loop of `_field_find_fsm_order` for the sale `so`. */
  function FindStep(prev: (Store, map<Id, ServiceOrder>), so: SaleOrder, mapping: map<Id, ServiceOrder>, prepare: ValuesHook): (r: (Store, map<Id, ServiceOrder>))
    ensures so.id in r.1 && r.1 == prev.1[so.id := r.1[so.id]]
    ensures so.id in mapping ==> r.0 == prev.0 && r.1[so.id] == mapping[so.id]
    ensures so.id !in mapping ==>
      && r.0.orders == prev.0.orders + [r.1[so.id]]
      && Extends(prev.0.posts, r.0.posts)
      && IsOrderLevelOf(r.1[so.id], so.id)
      && r.1[so.id].id == NextId(prev.0)
      && Seeds(r.1[so.id], prepare(so))
      && r.0.posts == prev.0.posts + CrossReference(so.id, r.1[so.id].id)
  {
    if so.id in mapping then (prev.0, prev.1[so.id := mapping[so.id]])
    else
      var created := CreateOne(so, prev.0, prepare);
      (created.0, prev.1[so.id := created.1])
  }

  /**
   * The loop of `_field_find_fsm_order`, with the mapping computed before
   * the loop: each sale reuses its mapped service order or gets a new one.
   */
  function FindLoop(sales: seq<SaleOrder>, mapping: map<Id, ServiceOrder>, st: Store, prepare: ValuesHook): (r: (Store, map<Id, ServiceOrder>))
    ensures Extends(st.orders, r.0.orders) && Extends(st.posts, r.0.posts)
    ensures r.1.Keys == SaleIds(sales)
  {
    if |sales| == 0 then (st, map[])
    else
      SaleIdsLast(sales);
      FindStep(FindLoop(sales[..|sales| - 1], mapping, st, prepare), sales[|sales| - 1], mapping, prepare)
  }

  /** `FindLoop` on a non-empty list: the earlier sales, then one step for the last. */
  lemma FindLoopLast(sales: seq<SaleOrder>, mapping: map<Id, ServiceOrder>, st: Store, prepare: ValuesHook)
    requires |sales| > 0
    ensures FindLoop(sales, mapping, st, prepare) == FindStep(FindLoop(sales[..|sales| - 1], mapping, st, prepare), sales[|sales| - 1], mapping, prepare)
  {
  }

  /** The entries of `result` for sales the mapping does not cover. */
  function Uncovering(result: map<Id, ServiceOrder>, mapping: map<Id, ServiceOrder>): map<Id, ServiceOrder> {
    map id | id in result && id !in mapping :: result[id]
  }

  /** The part of `after` beyond the old store `before`. */
  function Suffix(before: Store, after: Store): seq<ServiceOrder>
    requires |before.orders| <= |after.orders|
  {
    after.orders[|before.orders|..]
  }

  /** No two records of `s` belong to the same sale. */
  predicate OnePerSale(s: seq<ServiceOrder>) {
    forall i, j :: 0 <= i < j < |s| ==> s[i].saleId != s[j].saleId
  }

  /** The store holds an order-level service order of the sale `saleId`. */
  predicate HasOrderLevel(orders: seq<ServiceOrder>, saleId: Id) {
    exists o :: o in orders && IsOrderLevelOf(o, saleId)
  }

  /** No two order-level service orders of the store belong to the same sale. */
  predicate AtMostOneOrderLevel(orders: seq<ServiceOrder>) {
    forall i, j :: 0 <= i < j < |orders| && IsOrderLevel(orders[i]) && IsOrderLevel(orders[j]) && orders[i].saleId.Some? ==>
      orders[i].saleId != orders[j].saleId
  }

  /** The one search of `_field_find_fsm_order`, read into a mapping by sale id. */
  function ExistingMapping(sales: seq<SaleOrder>, st: Store): (m: map<Id, ServiceOrder>)
    ensures forall id :: id in m <==> id in SaleIds(sales) && HasOrderLevel(st.orders, id)
    ensures forall id :: id in m ==> m[id] in st.orders && IsOrderLevelOf(m[id], id)
  {
    var found := Search(st.orders, OrderLevelOf(SaleIds(sales)));
    assert forall id :: id in SaleIds(sales) && HasOrderLevel(st.orders, id) ==> id in OrderLevelMapping(found) by {
      forall id | id in SaleIds(sales) && HasOrderLevel(st.orders, id)
        ensures id in OrderLevelMapping(found)
      {
        var o :| o in st.orders && IsOrderLevelOf(o, id);
        assert o in found;
      }
    }
    OrderLevelMapping(found)
  }

  /** `_field_find_fsm_order`: the found-or-created order-level service order of each sale. */
  function FindFsmOrders(sales: seq<SaleOrder>, st: Store, prepare: ValuesHook): (r: (Store, map<Id, ServiceOrder>))
    ensures r.1.Keys == SaleIds(sales)
    ensures Extends(st.orders, r.0.orders) && Extends(st.posts, r.0.posts)
  {
    FindLoop(sales, ExistingMapping(sales, st), st, prepare)
  }
}

=== FILE: finding_facts.dfy ===
/**
 * Properties of `_field_find_fsm_order`: what it returns for each sale
 * order, what it adds to the store, that a second call changes nothing,
 * and that it keeps at most one order-level service order per sale.
 */
module FindingFacts {

  import opened Records
  import opened Repository
  import opened Creation
  import opened CreationFacts
  import opened Finding

  /** Building the mapping from a longer list: entries from the later part override. */
  lemma {:induction false} OrderLevelMappingAppend(a: seq<ServiceOrder>, b: seq<ServiceOrder>)
    ensures OrderLevelMapping(a + b) == OrderLevelMapping(a) + OrderLevelMapping(b)
    decreases |b|
  {
    if |b| == 0 {
      assert a + b == a;
    } else {
      var b' := b[..|b| - 1];
      assert (a + b)[..|a + b| - 1] == a + b';
      OrderLevelMappingAppend(a, b');
    }
  }

  lemma UncoveringUpdate(result: map<Id, ServiceOrder>, mapping: map<Id, ServiceOrder>, id: Id, o: ServiceOrder)
    ensures id !in mapping ==> Uncovering(result[id := o], mapping) == Uncovering(result, mapping)[id := o]
    ensures id in mapping ==> Uncovering(result[id := o], mapping) == Uncovering(result, mapping)
  {
  }

  /** The loop adds one record and two messages per sale the mapping does not cover. */
  lemma {:induction false} FindLoopCount(sales: seq<SaleOrder>, mapping: map<Id, ServiceOrder>, st: Store, prepare: ValuesHook)
    ensures |FindLoop(sales, mapping, st, prepare).0.orders| == |st.orders| + Uncovered(sales, mapping)
    ensures |FindLoop(sales, mapping, st, prepare).0.posts| == |st.posts| + 2 * Uncovered(sales, mapping)
  {
    if |sales| > 0 {
      FindLoopCount(sales[..|sales| - 1], mapping, st, prepare);
      FindLoopLast(sales, mapping, st, prepare);
    }
  }

  /** The new records of the whole loop: those of the earlier sales, then those of the last step. */
  lemma SuffixSplit(st: Store, mid: Store, last: Store)
    requires Extends(st.orders, mid.orders) && Extends(mid.orders, last.orders)
    ensures Suffix(st, last) == Suffix(st, mid) + Suffix(mid, last)
  {
  }

  /**
   * Every service order the loop adds is order-level, for one of the
   * sales, and for a sale the mapping did not cover.
   */
  lemma {:induction false} FindLoopNewOrders(sales: seq<SaleOrder>, mapping: map<Id, ServiceOrder>, st: Store, prepare: ValuesHook)
    ensures var st' := FindLoop(sales, mapping, st, prepare).0;
            forall o :: o in Suffix(st, st') ==>
              o.saleLineId.None? && o.saleId.Some? && o.saleId.value in SaleIds(sales) && o.saleId.value !in mapping
  {
    if |sales| > 0 {
      var init := sales[..|sales| - 1];
      var so := sales[|sales| - 1];
      FindLoopNewOrders(init, mapping, st, prepare);
      var prev := FindLoop(init, mapping, st, prepare);
      var r := FindStep(prev, so, mapping, prepare);
      FindLoopLast(sales, mapping, st, prepare);
      SuffixSplit(st, prev.0, r.0);
      SaleIdsLast(sales);
      forall o | o in Suffix(st, r.0)
        ensures o.saleLineId.None? && o.saleId.Some? && o.saleId.value in SaleIds(sales) && o.saleId.value !in mapping
      {
        if o !in Suffix(st, prev.0) {
          assert so.id !in mapping;
          assert Suffix(prev.0, r.0) == [r.1[so.id]];
          assert o == r.1[so.id];
        }
      }
    }
  }

  /**
   * A sale the mapping covers gets the mapped service order; any other
   * sale gets a service order of the new part, order-level for it.
   */
  lemma {:induction false} FindLoopResult(sales: seq<SaleOrder>, mapping: map<Id, ServiceOrder>, st: Store, prepare: ValuesHook)
    ensures var r := FindLoop(sales, mapping, st, prepare);
            && (forall id :: id in r.1 && id in mapping ==> r.1[id] == mapping[id])
            && (forall id :: id in r.1 && id !in mapping ==> r.1[id] in Suffix(st, r.0) && IsOrderLevelOf(r.1[id], id))
  {
    if |sales| > 0 {
      var init := sales[..|sales| - 1];
      var so := sales[|sales| - 1];
      FindLoopResult(init, mapping, st, prepare);
      var prev := FindLoop(init, mapping, st, prepare);
      var r := FindStep(prev, so, mapping, prepare);
      FindLoopLast(sales, mapping, st, prepare);
      SuffixSplit(st, prev.0, r.0);
      if so.id !in mapping {
        assert Suffix(prev.0, r.0) == [r.1[so.id]];
      }
    }
  }

  /**
   * A sale the mapping does not cover gets a service order seeded with
   * the prepared values of a sale order of that id.
   */
  lemma {:induction false} FindLoopSeeds(sales: seq<SaleOrder>, mapping: map<Id, ServiceOrder>, st: Store, prepare: ValuesHook)
    ensures var r := FindLoop(sales, mapping, st, prepare);
            forall id :: id in r.1 && id !in mapping ==>
              exists k :: 0 <= k < |sales| && sales[k].id == id && Seeds(r.1[id], prepare(sales[k]))
  {
    if |sales| > 0 {
      var init := sales[..|sales| - 1];
      var so := sales[|sales| - 1];
      FindLoopSeeds(init, mapping, st, prepare);
      var prev := FindLoop(init, mapping, st, prepare);
      var r := FindStep(prev, so, mapping, prepare);
      FindLoopLast(sales, mapping, st, prepare);
      forall id | id in r.1 && id !in mapping
        ensures exists k :: 0 <= k < |sales| && sales[k].id == id && Seeds(r.1[id], prepare(sales[k]))
      {
        if id == so.id {
          assert Seeds(r.1[id], prepare(sales[|sales| - 1]));
        } else {
          assert id in prev.1 && r.1[id] == prev.1[id];
          var k :| 0 <= k < |init| && init[k].id == id && Seeds(prev.1[id], prepare(init[k]));
          assert sales[k] == init[k];
        }
      }
    }
  }

  /**
   * Read back as a mapping, the new part of the store sends each sale
   * the mapping did not cover to the service order the loop returned for it.
   */
  lemma {:induction false} FindLoopSuffixMapping(sales: seq<SaleOrder>, mapping: map<Id, ServiceOrder>, st: Store, prepare: ValuesHook)
    ensures var r := FindLoop(sales, mapping, st, prepare);
            OrderLevelMapping(Suffix(st, r.0)) == Uncovering(r.1, mapping)
  {
    if |sales| == 0 {
      assert Suffix(st, FindLoop(sales, mapping, st, prepare).0) == [];
    } else {
      var init := sales[..|sales| - 1];
      FindLoopSuffixMapping(init, mapping, st, prepare);
      FindLoopLast(sales, mapping, st, prepare);
      SuffixMappingStep(st, FindLoop(init, mapping, st, prepare), sales[|sales| - 1], mapping, prepare);
    }
  }

  /** One loop step keeps the new part of the store in step with the uncovered results. */
  lemma SuffixMappingStep(st: Store, prev: (Store, map<Id, ServiceOrder>), so: SaleOrder, mapping: map<Id, ServiceOrder>, prepare: ValuesHook)
    requires Extends(st.orders, prev.0.orders)
    requires OrderLevelMapping(Suffix(st, prev.0)) == Uncovering(prev.1, mapping)
    ensures var r := FindStep(prev, so, mapping, prepare);
            Extends(st.orders, r.0.orders) && OrderLevelMapping(Suffix(st, r.0)) == Uncovering(r.1, mapping)
  {
    var r := FindStep(prev, so, mapping, prepare);
    UncoveringUpdate(prev.1, mapping, so.id, r.1[so.id]);
    if so.id !in mapping {
      var suffix := Suffix(st, r.0);
      assert suffix == Suffix(st, prev.0) + [r.1[so.id]];
      assert suffix[..|suffix| - 1] == Suffix(st, prev.0);
    }
  }

  /** The loop keeps record ids unique and gives new records ids above all old ones. */
  lemma {:induction false} FindLoopFresh(sales: seq<SaleOrder>, mapping: map<Id, ServiceOrder>, st: Store, prepare: ValuesHook)
    ensures FreshBeyond(st.orders, FindLoop(sales, mapping, st, prepare).0.orders)
    ensures UniqueIds(st.orders) ==> UniqueIds(FindLoop(sales, mapping, st, prepare).0.orders)
  {
    if |sales| > 0 {
      var init := sales[..|sales| - 1];
      var so := sales[|sales| - 1];
      FindLoopFresh(init, mapping, st, prepare);
      FindLoopLast(sales, mapping, st, prepare);
      var prev := FindLoop(init, mapping, st, prepare);
      if so.id !in mapping {
        NextIdIsFresh(prev.0);
        GrowFresh(st.orders, prev.0.orders, FindStep(prev, so, mapping, prepare).1[so.id]);
      }
    }
  }

  /** With distinct sales, no two new records are order-level for the same sale. */
  lemma {:induction false} FindLoopOnePerSale(sales: seq<SaleOrder>, mapping: map<Id, ServiceOrder>, st: Store, prepare: ValuesHook)
    requires DistinctSales(sales)
    ensures OnePerSale(Suffix(st, FindLoop(sales, mapping, st, prepare).0))
  {
    if |sales| > 0 {
      var init := sales[..|sales| - 1];
      var so := sales[|sales| - 1];
      assert DistinctSales(init);
      FindLoopOnePerSale(init, mapping, st, prepare);
      FindLoopNewOrders(init, mapping, st, prepare);
      FindLoopLast(sales, mapping, st, prepare);
      LastSaleIsNew(sales);
      OnePerSaleStep(st, FindLoop(init, mapping, st, prepare), so, mapping, prepare);
    }
  }

  /** A step for a sale none of the new records belongs to keeps one record per sale. */
  lemma OnePerSaleStep(st: Store, prev: (Store, map<Id, ServiceOrder>), so: SaleOrder, mapping: map<Id, ServiceOrder>, prepare: ValuesHook)
    requires Extends(st.orders, prev.0.orders)
    requires OnePerSale(Suffix(st, prev.0))
    requires forall o :: o in Suffix(st, prev.0) ==> o.saleId != Some(so.id)
    ensures var r := FindStep(prev, so, mapping, prepare);
            Extends(st.orders, r.0.orders) && OnePerSale(Suffix(st, r.0))
  {
    var r := FindStep(prev, so, mapping, prepare);
    if so.id !in mapping {
      var earlier := Suffix(st, prev.0);
      assert Suffix(st, r.0) == earlier + [r.1[so.id]];
      forall i | 0 <= i < |earlier|
        ensures earlier[i].saleId != r.1[so.id].saleId
      {
        assert earlier[i] in earlier;
      }
    }
  }

  /** When the mapping covers every sale, the loop creates nothing and returns the mapping. */
  lemma {:induction false} FindLoopAllCovered(sales: seq<SaleOrder>, mapping: map<Id, ServiceOrder>, st: Store, prepare: ValuesHook)
    requires forall so :: so in sales ==> so.id in mapping
    ensures FindLoop(sales, mapping, st, prepare) == (st, map id | id in SaleIds(sales) :: mapping[id])
  {
    if |sales| > 0 {
      var init := sales[..|sales| - 1];
      var so := sales[|sales| - 1];
      assert forall x :: x in init ==> x in sales;
      FindLoopAllCovered(init, mapping, st, prepare);
      var prev := FindLoop(init, mapping, st, prepare);
      var r := FindStep(prev, so, mapping, prepare);
      FindLoopLast(sales, mapping, st, prepare);
      SaleIdsLast(sales);
      assert r.1 == (map id | id in SaleIds(sales) :: mapping[id]);
    }
  }

  /**
   * Each sale gets an order-level service order of its own that is in
   * the resulting store: the existing one when there is one, a new one
   * otherwise. Every new record is order-level for an input sale that
   * had none, and ids stay fresh and unique.
   */
  lemma FindFsmOrdersResolves(sales: seq<SaleOrder>, st: Store, prepare: ValuesHook)
    ensures var r := FindFsmOrders(sales, st, prepare);
            && (forall id :: id in r.1 ==> IsOrderLevelOf(r.1[id], id) && r.1[id] in r.0.orders)
            && (forall id :: id in r.1 && HasOrderLevel(st.orders, id) ==> r.1[id] in st.orders)
            && (forall id :: id in r.1 && !HasOrderLevel(st.orders, id) ==> r.1[id] in Suffix(st, r.0))
            && (forall o :: o in Suffix(st, r.0) ==>
                  IsOrderLevel(o) && o.saleId.Some? && o.saleId.value in SaleIds(sales) &&
                  !HasOrderLevel(st.orders, o.saleId.value))
            && (forall id :: id in r.1 && !HasOrderLevel(st.orders, id) ==>
                  exists k :: 0 <= k < |sales| && sales[k].id == id && Seeds(r.1[id], prepare(sales[k])))
            && FreshBeyond(st.orders, r.0.orders)
            && (UniqueIds(st.orders) ==> UniqueIds(r.0.orders))
  {
    var mapping := ExistingMapping(sales, st);
    var r := FindFsmOrders(sales, st, prepare);
    FindLoopResult(sales, mapping, st, prepare);
    FindLoopSeeds(sales, mapping, st, prepare);
    FindLoopNewOrders(sales, mapping, st, prepare);
    FindLoopFresh(sales, mapping, st, prepare);
    assert forall o :: o in Suffix(st, r.0) ==> o in r.0.orders;
  }

  /** The number of records `_field_find_fsm_order` adds: one per input sale that lacked one. */
  lemma FindFsmOrdersCount(sales: seq<SaleOrder>, st: Store, prepare: ValuesHook)
    ensures |FindFsmOrders(sales, st, prepare).0.orders| == |st.orders| + Uncovered(sales, ExistingMapping(sales, st))
    ensures |FindFsmOrders(sales, st, prepare).0.posts| == |st.posts| + 2 * Uncovered(sales, ExistingMapping(sales, st))
  {
    FindLoopCount(sales, ExistingMapping(sales, st), st, prepare);
  }

  /**
   * On a store where every input sale already has an order-level service
   * order, `_field_find_fsm_order` creates and posts nothing.
   */
  lemma FindOnCoveredStore(sales: seq<SaleOrder>, st: Store, prepare: ValuesHook)
    requires forall so :: so in sales ==> HasOrderLevel(st.orders, so.id)
    ensures FindFsmOrders(sales, st, prepare).0 == st
  {
    var mapping := ExistingMapping(sales, st);
    assert forall so :: so in sales ==> so.id in mapping by {
      forall so | so in sales
        ensures so.id in mapping
      {
        assert so.id in SaleIds(sales);
      }
    }
    FindLoopAllCovered(sales, mapping, st, prepare);
  }

  /**
   * A sale listed twice that has no order-level service order gets two:
   * the mapping is read before the loop, so the second visit does not
   * see the record the first one created.
   */
  lemma RepeatedSaleCreatesTwo(so: SaleOrder, st: Store, prepare: ValuesHook)
    requires !HasOrderLevel(st.orders, so.id)
    ensures |FindFsmOrders([so, so], st, prepare).0.orders| == |st.orders| + 2
  {
    var mapping := ExistingMapping([so, so], st);
    assert so.id !in mapping;
    assert Uncovered([so], mapping) == 1 by {
      assert [so][..0] == [];
    }
    assert Uncovered([so, so], mapping) == 2 by {
      assert [so, so][..1] == [so];
    }
    FindFsmOrdersCount([so, so], st, prepare);
  }

  /** Searching the resulting store finds what was there before, then the new records. */
  lemma SearchAfterFind(sales: seq<SaleOrder>, st: Store, prepare: ValuesHook)
    ensures var r := FindFsmOrders(sales, st, prepare);
            var d := OrderLevelOf(SaleIds(sales));
            Search(r.0.orders, d) == Search(st.orders, d) + Suffix(st, r.0)
  {
    var d := OrderLevelOf(SaleIds(sales));
    var r := FindFsmOrders(sales, st, prepare);
    var suffix := Suffix(st, r.0);
    assert r.0.orders == st.orders + suffix;
    FindLoopNewOrders(sales, ExistingMapping(sales, st), st, prepare);
    assert forall i :: 0 <= i < |suffix| ==> suffix[i] in suffix;
    SearchAllMatch(suffix, d);
    SearchAppend(st.orders, suffix, d);
  }

  /** A result that agrees with the mapping where it is defined is the mapping completed by its uncovered part. */
  lemma CompleteMapping(result: map<Id, ServiceOrder>, mapping: map<Id, ServiceOrder>)
    requires mapping.Keys <= result.Keys
    requires forall id :: id in result && id in mapping ==> result[id] == mapping[id]
    ensures mapping + Uncovering(result, mapping) == result
  {
  }

  /** Looked up again, the resulting store yields exactly the service orders returned. */
  lemma MappingAfterFind(sales: seq<SaleOrder>, st: Store, prepare: ValuesHook)
    ensures var r := FindFsmOrders(sales, st, prepare);
            ExistingMapping(sales, r.0) == r.1
  {
    var d := OrderLevelOf(SaleIds(sales));
    var mapping := ExistingMapping(sales, st);
    var r := FindFsmOrders(sales, st, prepare);
    SearchAfterFind(sales, st, prepare);
    OrderLevelMappingAppend(Search(st.orders, d), Suffix(st, r.0));
    FindLoopSuffixMapping(sales, mapping, st, prepare);
    FindLoopResult(sales, mapping, st, prepare);
    CompleteMapping(r.1, mapping);
  }

  /**
   * Calling `_field_find_fsm_order` again on the store it produced
   * creates nothing, posts nothing and returns the same service orders.
   */
  lemma FindIsIdempotent(sales: seq<SaleOrder>, st: Store, prepare: ValuesHook)
    ensures var r := FindFsmOrders(sales, st, prepare);
            FindFsmOrders(sales, r.0, prepare) == r
  {
    var r := FindFsmOrders(sales, st, prepare);
    SecondCallIsLoop(sales, st, prepare);
    assert forall so :: so in sales ==> so.id in SaleIds(sales);
    FindLoopAllCovered(sales, r.1, r.0, prepare);
    RestrictToKeys(r.1, SaleIds(sales));
  }

  /** Restricting a map to its own keys gives the map back. */
  lemma RestrictToKeys(m: map<Id, ServiceOrder>, keys: set<Id>)
    requires m.Keys == keys
    ensures (map id | id in keys :: m[id]) == m
  {
  }

  /** The second call runs the loop with the first call's result as its mapping. */
  lemma SecondCallIsLoop(sales: seq<SaleOrder>, st: Store, prepare: ValuesHook)
    ensures var r := FindFsmOrders(sales, st, prepare);
            FindFsmOrders(sales, r.0, prepare) == FindLoop(sales, r.1, r.0, prepare)
  {
    MappingAfterFind(sales, st, prepare);
  }

  /** Appending records of distinct sales that had no order-level record keeps at most one per sale. */
  lemma AtMostOneAppend(a: seq<ServiceOrder>, b: seq<ServiceOrder>)
    requires AtMostOneOrderLevel(a)
    requires OnePerSale(b)
    requires forall o :: o in b ==> IsOrderLevel(o) && o.saleId.Some? && !HasOrderLevel(a, o.saleId.value)
    ensures AtMostOneOrderLevel(a + b)
  {
    var s := a + b;
    var n := |a|;
    forall i, j | 0 <= i < j < |s| && IsOrderLevel(s[i]) && IsOrderLevel(s[j]) && s[i].saleId.Some?
      ensures s[i].saleId != s[j].saleId
    {
      if j < n {
        assert s[i] == a[i] && s[j] == a[j];
      } else if i < n {
        assert s[i] == a[i] && s[j] == b[j - n];
        assert s[j] in b && a[i] in a;
        assert !IsOrderLevelOf(a[i], s[j].saleId.value);
      } else {
        assert s[i] == b[i - n] && s[j] == b[j - n];
      }
    }
  }

  /** With distinct input sales, `_field_find_fsm_order` keeps at most one order-level service order per sale. */
  lemma FindKeepsAtMostOne(sales: seq<SaleOrder>, st: Store, prepare: ValuesHook)
    requires DistinctSales(sales)
    requires AtMostOneOrderLevel(st.orders)
    ensures AtMostOneOrderLevel(FindFsmOrders(sales, st, prepare).0.orders)
  {
    var mapping := ExistingMapping(sales, st);
    var r := FindFsmOrders(sales, st, prepare);
    var suffix := Suffix(st, r.0);
    ExtendsSplit(st.orders, r.0.orders);
    FindLoopOnePerSale(sales, mapping, st, prepare);
    assert forall o :: o in suffix ==> IsOrderLevel(o) && o.saleId.Some? && !HasOrderLevel(st.orders, o.saleId.value) by {
      FindLoopNewOrders(sales, mapping, st, prepare);
    }
    AtMostOneAppend(st.orders, suffix);
  }

  /** Under the at-most-one invariant, two order-level records of one sale are the same record. */
  lemma OrderLevelUnique(orders: seq<ServiceOrder>, a: ServiceOrder, b: ServiceOrder, saleId: Id)
    requires AtMostOneOrderLevel(orders)
    requires a in orders && b in orders && IsOrderLevelOf(a, saleId) && IsOrderLevelOf(b, saleId)
    ensures a == b
  {
    var k :| 0 <= k < |orders| && orders[k] == a;
    var m :| 0 <= m < |orders| && orders[m] == b;
    assert k == m;
  }

  /**
   * With distinct input sales and at most one order-level service order
   * per sale in the store, the one order-level service order of each
   * input sale in the resulting store is the one returned for it.
   */
  lemma FindReturnsTheOnlyOrderLevel(sales: seq<SaleOrder>, st: Store, so: SaleOrder, o: ServiceOrder, prepare: ValuesHook)
    requires DistinctSales(sales)
    requires AtMostOneOrderLevel(st.orders)
    requires so in sales
    requires o in FindFsmOrders(sales, st, prepare).0.orders && IsOrderLevelOf(o, so.id)
    ensures o == FindFsmOrders(sales, st, prepare).1[so.id]
  {
    var r := FindFsmOrders(sales, st, prepare);
    FindKeepsAtMostOne(sales, st, prepare);
    FindFsmOrdersResolves(sales, st, prepare);
    assert so.id in r.1;
    OrderLevelUnique(r.0.orders, o, r.1[so.id], so.id);
  }

  /** The lookup ignores line-level service orders: adding one changes no found entry. */
  lemma LookupIgnoresLineLevel(sales: seq<SaleOrder>, st: Store, o: ServiceOrder)
    requires o.saleLineId.Some?
    ensures ExistingMapping(sales, st.(orders := st.orders + [o])) == ExistingMapping(sales, st)
  {
    var d := OrderLevelOf(SaleIds(sales));
    SearchAppend(st.orders, [o], d);
    assert Search([o], d) == [];
    assert Search(st.orders, d) + [] == Search(st.orders, d);
  }
}

=== FILE: linkage.dfy ===
/**
 * The field-service orders linked to a sale order: those created for one
 * of its lines and those whose sale is the order itself.
 */
module Linkage {

  import opened Records
  import opened Recordsets
  import opened Repository

  function LineIds(so: SaleOrder): set<Id> {
    set l | l in so.lines :: l.id
  }

  /** `o` belongs to `so`, through one of its lines or directly. */
  predicate LinkedTo(so: SaleOrder, o: ServiceOrder) {
    (o.saleLineId.Some? && o.saleLineId.value in LineIds(so)) || o.saleId == Some(so.id)
  }

  /** The two computed fields `fsm_order_ids` and `fsm_order_count`. */
  datatype LinkInfo = LinkInfo(fsmOrderIds: seq<Id>, fsmOrderCount: nat)

  /** `_compute_fsm_order_ids` for one sale order. */
  function ComputeFsmOrderIds(so: SaleOrder, orders: seq<ServiceOrder>): (r: LinkInfo)
    ensures NoDup(r.fsmOrderIds)
    ensures forall id :: id in r.fsmOrderIds <==>
      exists i :: 0 <= i < |orders| && orders[i].id == id && LinkedTo(so, orders[i])
    ensures r.fsmOrderCount == |Elems(r.fsmOrderIds)|
  {
    var byLine := Search(orders, SaleLineIn(LineIds(so)));
    var bySale := Search(orders, SaleIs(so.id));
    var linked := Union(Union([], Ids(byLine)), Ids(bySale));
    SearchIds(orders, SaleLineIn(LineIds(so)));
    SearchIds(orders, SaleIs(so.id));
    NoDupCardinality(linked);
    LinkInfo(linked, |linked|)
  }

  /** The number of records of the store that are linked to `so`. */
  function CountLinked(so: SaleOrder, orders: seq<ServiceOrder>): nat {
    if |orders| == 0 then 0
    else CountLinked(so, orders[..|orders| - 1]) + (if LinkedTo(so, orders[|orders| - 1]) then 1 else 0)
  }

  function LinkedIdSet(so: SaleOrder, orders: seq<ServiceOrder>): set<Id> {
    set i | 0 <= i < |orders| && LinkedTo(so, orders[i]) :: orders[i].id
  }

  /** The linked ids of a non-empty store: those of all but the last record, and the last one's if linked. */
  lemma LinkedIdSetLast(so: SaleOrder, orders: seq<ServiceOrder>)
    requires |orders| > 0
    ensures var last := orders[|orders| - 1];
            LinkedIdSet(so, orders) ==
              LinkedIdSet(so, orders[..|orders| - 1]) + (if LinkedTo(so, last) then {last.id} else {})
  {
    var init := orders[..|orders| - 1];
    assert forall i :: 0 <= i < |init| ==> init[i] == orders[i];
  }

  /** With unique ids, the last record's id is not among the linked ids of the others. */
  lemma LastIdNotLinkedBefore(so: SaleOrder, orders: seq<ServiceOrder>)
    requires UniqueIds(orders) && |orders| > 0
    ensures orders[|orders| - 1].id !in LinkedIdSet(so, orders[..|orders| - 1])
  {
    var init := orders[..|orders| - 1];
    forall i | 0 <= i < |init|
      ensures init[i].id != orders[|orders| - 1].id
    {
      assert init[i] == orders[i];
    }
  }

  /** With unique ids, the linked ids are as many as the linked records. */
  lemma {:induction false} LinkedIdSetSize(so: SaleOrder, orders: seq<ServiceOrder>)
    requires UniqueIds(orders)
    ensures |LinkedIdSet(so, orders)| == CountLinked(so, orders)
  {
    if |orders| > 0 {
      var init := orders[..|orders| - 1];
      assert |LinkedIdSet(so, init)| == CountLinked(so, init) by {
        assert UniqueIds(init);
        LinkedIdSetSize(so, init);
      }
      LinkedIdSetLast(so, orders);
      LastIdNotLinkedBefore(so, orders);
    }
  }

  /**
   * With record ids unique in the store, `fsm_order_count` is the number
   * of stored service orders linked to the sale.
   */
  lemma CountIsNumberOfLinkedOrders(so: SaleOrder, orders: seq<ServiceOrder>)
    requires UniqueIds(orders)
    ensures ComputeFsmOrderIds(so, orders).fsmOrderCount == CountLinked(so, orders)
  {
    var info := ComputeFsmOrderIds(so, orders);
    assert Elems(info.fsmOrderIds) == LinkedIdSet(so, orders);
    LinkedIdSetSize(so, orders);
  }

  /** A line-level and an order-level service order of the same sale are both linked. */
  lemma BothKindsLinked(so: SaleOrder, orders: seq<ServiceOrder>, i: nat, j: nat)
    requires i < |orders| && j < |orders|
    requires orders[i].saleLineId.Some? && orders[i].saleLineId.value in LineIds(so)
    requires orders[j].saleLineId.None? && orders[j].saleId == Some(so.id)
    ensures orders[i].id in ComputeFsmOrderIds(so, orders).fsmOrderIds
    ensures orders[j].id in ComputeFsmOrderIds(so, orders).fsmOrderIds
  {
  }
}

=== FILE: location_inference.dfy ===
/**
 * Default service location of a sale order when its customer changes:
 * the first location owned by the customer, the shipping address or the
 * commercial partner, narrowed to the customer alone when the customer
 * is itself a service location.
 */
module LocationInference {

  import opened Records

  /** The owners the location search accepts for `so`. */
  function CandidateOwners(so: SaleOrder): set<Id> {
    if so.partner.fsmLocation then {so.partner.id}
    else {so.partner.id, so.shippingPartnerId, so.partner.commercialPartnerId}
  }

  /** `locations[i]` is the first location owned by one of `owners`. */
  predicate FirstCandidateAt(locations: seq<Location>, owners: set<Id>, i: int) {
    && 0 <= i < |locations|
    && locations[i].partnerId in owners
    && forall j :: 0 <= j < i ==> locations[j].partnerId !in owners
  }

  /** `fsm.location.search(domain)` over all locations, in their search order. */
  function SearchLocations(locations: seq<Location>, owners: set<Id>): (r: seq<Location>)
    ensures forall x :: x in r <==> x in locations && x.partnerId in owners
    ensures |r| > 0 ==> exists i :: FirstCandidateAt(locations, owners, i) && locations[i] == r[0]
  {
    if |locations| == 0 then []
    else
      var rest := SearchLocations(locations[1..], owners);
      assert forall x :: x in locations <==> x == locations[0] || x in locations[1..];
      if locations[0].partnerId in owners then [locations[0]] + rest
      else
        assert |rest| > 0 ==> exists i :: FirstCandidateAt(locations, owners, i) && locations[i] == rest[0] by {
          if |rest| > 0 {
            var i :| FirstCandidateAt(locations[1..], owners, i) && locations[1..][i] == rest[0];
            assert FirstCandidateAt(locations, owners, i + 1);
          }
        }
        rest
  }

  /** The location chosen for `so`: the first search hit, or none. */
  function InferLocation(so: SaleOrder, locations: seq<Location>): (r: Option<Location>)
    ensures r.None? <==> forall i :: 0 <= i < |locations| ==> locations[i].partnerId !in CandidateOwners(so)
    ensures r.Some? ==> exists i :: FirstCandidateAt(locations, CandidateOwners(so), i) && locations[i] == r.value
  {
    var found := SearchLocations(locations, CandidateOwners(so));
    if |found| > 0 then
      assert found[0] in found;
      Some(found[0])
    else
      assert forall i :: 0 <= i < |locations| ==> locations[i] !in found;
      None
  }

  /**
   * `onchange_partner_id`: runs the base onchange `base` first, then sets
   * the service location of the order it produced and nothing else.
   */
  function OnchangePartnerId(so: SaleOrder, base: SaleOrder -> SaleOrder, locations: seq<Location>): (r: SaleOrder)
    ensures r.(fsmLocation := base(so).fsmLocation) == base(so)
    ensures r.fsmLocation.Some? ==> r.fsmLocation.value in locations
    ensures r.fsmLocation.Some? ==>
      exists i :: FirstCandidateAt(locations, CandidateOwners(base(so)), i) && locations[i] == r.fsmLocation.value
    ensures base(so).partner.fsmLocation && r.fsmLocation.Some? ==>
      r.fsmLocation.value.partnerId == base(so).partner.id
    ensures !base(so).partner.fsmLocation && r.fsmLocation.Some? ==>
      r.fsmLocation.value.partnerId in
        {base(so).partner.id, base(so).shippingPartnerId, base(so).partner.commercialPartnerId}
    ensures r.fsmLocation.None? <==>
      forall i :: 0 <= i < |locations| ==> locations[i].partnerId !in CandidateOwners(base(so))
  {
    var edited := base(so);
    edited.(fsmLocation := InferLocation(edited, locations))
  }

  /**
   * A customer that is not a service location gets the only location
   * owned by its commercial partner, when no other candidate exists.
   */
  lemma CommercialPartnerLocationFound(so: SaleOrder, locations: seq<Location>, loc: Location)
    requires !so.partner.fsmLocation
    requires loc in locations && loc.partnerId == so.partner.commercialPartnerId
    requires forall i :: 0 <= i < |locations| && locations[i] != loc ==>
      locations[i].partnerId !in {so.partner.id, so.shippingPartnerId, so.partner.commercialPartnerId}
    ensures InferLocation(so, locations) == Some(loc)
  {
  }

  /**
   * A customer that is itself a service location but owns no location
   * gets none, whatever its commercial partner or shipping address own.
   */
  lemma FlaggedCustomerIgnoresOtherOwners(so: SaleOrder, locations: seq<Location>)
    requires so.partner.fsmLocation
    requires forall i :: 0 <= i < |locations| ==> locations[i].partnerId != so.partner.id
    ensures InferLocation(so, locations) == None
  {
  }
}

=== FILE: navigation.dfy ===
/**
 * The "view field-service orders" button of a sale order: a closing
 * action when no service order is linked, the form of the only one, or
 * the list restricted to all of them.
 */
module Navigation {

  import opened Records
  import opened Recordsets
  import opened Linkage

  datatype Action = CloseWindow | FormView(resId: Id) | ListView(domainIds: seq<Id>)

  /** The ids of the stored service orders linked to any of `sales`. */
  function LinkedIds(sales: seq<SaleOrder>, orders: seq<ServiceOrder>): set<Id> {
    set k, id | 0 <= k < |sales| && id in LinkedIdSet(sales[k], orders) :: id
  }

  /** The linked ids of a list of sales are those of the earlier sales and those of the last. */
  lemma LinkedIdsLast(sales: seq<SaleOrder>, orders: seq<ServiceOrder>)
    requires |sales| > 0
    ensures LinkedIds(sales, orders) == LinkedIds(sales[..|sales| - 1], orders) + LinkedIdSet(sales[|sales| - 1], orders)
  {
    var init := sales[..|sales| - 1];
    forall id | id in LinkedIds(sales, orders)
      ensures id in LinkedIds(init, orders) || id in LinkedIdSet(sales[|sales| - 1], orders)
    {
      var k :| 0 <= k < |sales| && id in LinkedIdSet(sales[k], orders);
      if k < |init| {
        assert sales[k] == init[k];
      }
    }
    forall id | id in LinkedIds(init, orders)
      ensures id in LinkedIds(sales, orders)
    {
      var k :| 0 <= k < |init| && id in LinkedIdSet(init[k], orders);
      assert sales[k] == init[k];
    }
  }

  /** The computed field of one sale holds exactly the ids of the service orders linked to it. */
  lemma ComputedIsLinkedIdSet(so: SaleOrder, orders: seq<ServiceOrder>)
    ensures Elems(ComputeFsmOrderIds(so, orders).fsmOrderIds) == LinkedIdSet(so, orders)
  {
  }

  /** `self.mapped("fsm_order_ids")`: the linked recordsets of the sales, united in order. */
  function MappedFsmOrderIds(sales: seq<SaleOrder>, orders: seq<ServiceOrder>): (r: seq<Id>)
    ensures NoDup(r)
    ensures Elems(r) == LinkedIds(sales, orders)
  {
    if |sales| == 0 then []
    else
      var last := sales[|sales| - 1];
      LinkedIdsLast(sales, orders);
      ComputedIsLinkedIdSet(last, orders);
      Union(MappedFsmOrderIds(sales[..|sales| - 1], orders), ComputeFsmOrderIds(last, orders).fsmOrderIds)
  }

  /**
   * `action_view_fsm_order`: with no linked service order the window
   * closes, with one its form opens, with more a list restricted to
   * exactly their ids opens.
   */
  function ActionViewFsmOrder(sales: seq<SaleOrder>, orders: seq<ServiceOrder>): (a: Action)
    ensures a.CloseWindow? <==> LinkedIds(sales, orders) == {}
    ensures a.FormView? <==> |LinkedIds(sales, orders)| == 1
    ensures a.FormView? ==> LinkedIds(sales, orders) == {a.resId}
    ensures a.ListView? ==> NoDup(a.domainIds) && Elems(a.domainIds) == LinkedIds(sales, orders)
  {
    var ids := MappedFsmOrderIds(sales, orders);
    NoDupCardinality(ids);
    if |ids| > 1 then ListView(ids)
    else if |ids| == 1 then
      SingletonRecordset(ids);
      FormView(ids[0])
    else CloseWindow
  }

  /** On a single sale order, the button shows exactly the recordset of its computed field. */
  lemma ViewMatchesComputedField(so: SaleOrder, orders: seq<ServiceOrder>)
    ensures var info := ComputeFsmOrderIds(so, orders);
            var a := ActionViewFsmOrder([so], orders);
            && (a.CloseWindow? <==> info.fsmOrderCount == 0)
            && (a.FormView? <==> info.fsmOrderCount == 1)
            && (a.FormView? ==> info.fsmOrderIds == [a.resId])
            && (a.ListView? ==> Elems(a.domainIds) == Elems(info.fsmOrderIds))
  {
    var info := ComputeFsmOrderIds(so, orders);
    LinkedIdsLast([so], orders);
    assert LinkedIds([so][..0], orders) == {};
    ComputedIsLinkedIdSet(so, orders);
    NoDupCardinality(info.fsmOrderIds);
    if info.fsmOrderCount == 1 {
      SingletonRecordset(info.fsmOrderIds);
    }
  }
}

=== FILE: records.dfy ===
/**
 * Records of the sale / field-service data model: sale orders and their
 * lines, products with their field-service tracking mode and order
 * template, partners, field-service locations and field-service orders.
 * Identifiers are natural numbers; an unset many2one is `None`.
 */
module Records {

  type Id = nat

  /** Dates are kept abstract: only their equality matters to this model. */
  type Date = int

  datatype Option<+T> = None | Some(value: T)

  datatype Result<+T, +E> = Ok(value: T) | Err(error: E)

  /** The product's `field_service_tracking` selection: "no", "sale" or "line". */
  datatype Tracking = No | Sale | Line

  /** An `fsm.template`: default instructions, duration in hours and categories. */
  datatype Template = Template(
    id: Id,
    instructions: Option<string>,
    duration: real,
    categoryIds: set<Id>)

  datatype Product = Product(id: Id, tracking: Tracking, template: Option<Template>)

  /** A sale order line; section and note lines carry no product. */
  datatype SaleLine = SaleLine(id: Id, product: Option<Product>)

  /** A customer; `fsmLocation` says the partner is itself a service location. */
  datatype Partner = Partner(id: Id, fsmLocation: bool, commercialPartnerId: Id)

  /** An `fsm.location`, owned by the partner `partnerId`. */
  datatype Location = Location(id: Id, partnerId: Id, direction: Option<string>)

  datatype SaleOrder = SaleOrder(
    id: Id,
    partner: Partner,
    shippingPartnerId: Id,
    fsmLocation: Option<Location>,
    expectedDate: Option<Date>,
    companyId: Id,
    lines: seq<SaleLine>)

  /** The value dictionary handed to the creation of an `fsm.order`. */
  datatype FsmValues = FsmValues(
    locationId: Option<Id>,
    locationDirections: Option<string>,
    requestEarly: Option<Date>,
    scheduledStart: Option<Date>,
    todo: string,
    categoryIds: set<Id>,
    scheduledDuration: real,
    saleId: Id,
    companyId: Id)

  /**
   * An `fsm.order`. It is order-level when `saleLineId` is unset and
   * line-level otherwise; orders entered by hand may have no sale at all.
   */
  datatype ServiceOrder = ServiceOrder(
    id: Id,
    saleId: Option<Id>,
    saleLineId: Option<Id>,
    locationId: Option<Id>,
    locationDirections: Option<string>,
    requestEarly: Option<Date>,
    scheduledStart: Option<Date>,
    todo: string,
    categoryIds: set<Id>,
    scheduledDuration: real,
    companyId: Id)

  datatype Model = SaleModel | FsmModel

  /** A chatter message posted on record (model, resId) that links to (linkModel, linkId). */
  datatype Post = Post(model: Model, resId: Id, linkModel: Model, linkId: Id)

  predicate IsOrderLevel(o: ServiceOrder) {
    o.saleLineId.None?
  }

  /** `o` is an order-level service order of the sale `saleId`. */
  predicate IsOrderLevelOf(o: ServiceOrder, saleId: Id) {
    o.saleLineId.None? && o.saleId == Some(saleId)
  }

  /** `o` is the record that creation from `v` produces, whatever its id. */
  predicate Seeds(o: ServiceOrder, v: FsmValues) {
    && o.saleId == Some(v.saleId)
    && o.saleLineId.None?
    && o.locationId == v.locationId
    && o.locationDirections == v.locationDirections
    && o.requestEarly == v.requestEarly
    && o.scheduledStart == v.scheduledStart
    && o.todo == v.todo
    && o.categoryIds == v.categoryIds
    && o.scheduledDuration == v.scheduledDuration
    && o.companyId == v.companyId
  }

  lemma ConcatAssoc<T>(x: seq<T>, y: seq<T>, z: seq<T>)
    ensures x + y + z == x + (y + z)
  {
  }

  /** A non-empty sequence is its initial part followed by its last element. */
  lemma SplitLast<T>(s: seq<T>)
    requires |s| > 0
    ensures s == s[..|s| - 1] + [s[|s| - 1]]
  {
  }

  function SaleIds(sales: seq<SaleOrder>): set<Id> {
    set so | so in sales :: so.id
  }

  /** The ids of a non-empty list: those of all but the last, and the last one's. */
  lemma SaleIdsLast(sales: seq<SaleOrder>)
    requires |sales| > 0
    ensures SaleIds(sales) == SaleIds(sales[..|sales| - 1]) + {sales[|sales| - 1].id}
  {
    SplitLast(sales);
  }

  /** No two sale orders of `sales` are the same record. */
  predicate DistinctSales(sales: seq<SaleOrder>) {
    forall i, j :: 0 <= i < j < |sales| ==> sales[i].id != sales[j].id
  }

  /** With distinct sales, the last sale's id is not among the earlier ones. */
  lemma LastSaleIsNew(sales: seq<SaleOrder>)
    requires DistinctSales(sales) && |sales| > 0
    ensures sales[|sales| - 1].id !in SaleIds(sales[..|sales| - 1])
  {
    var init := sales[..|sales| - 1];
    forall x | x in init
      ensures x.id != sales[|sales| - 1].id
    {
      var k :| 0 <= k < |init| && init[k] == x;
      assert init[k] == sales[k];
    }
  }
}

=== FILE: recordsets.dfy ===
/**
 * Recordsets as ordered sequences of ids without repetition, and their
 * union `a | b`, which keeps `a` and appends the ids of `b` not yet present.
 */
module Recordsets {

  import opened Records

  predicate NoDup(s: seq<Id>) {
    forall i, j :: 0 <= i < j < |s| ==> s[i] != s[j]
  }

  function Elems(s: seq<Id>): set<Id> {
    set x | x in s
  }

  /** `a | b`: `a` first, then the members of `b` that are new, in order. */
  function Union(a: seq<Id>, b: seq<Id>): (r: seq<Id>)
    ensures forall x :: x in r <==> x in a || x in b
    ensures NoDup(a) ==> NoDup(r)
    ensures |a| <= |r| && r[..|a|] == a
    decreases |b|
  {
    if |b| == 0 then a
    else
      var a' := if b[0] in a then a else a + [b[0]];
      assert forall x :: x in b <==> x == b[0] || x in b[1..];
      Union(a', b[1..])
  }

  /** A recordset has as many records as distinct ids. */
  lemma {:induction false} NoDupCardinality(s: seq<Id>)
    requires NoDup(s)
    ensures |Elems(s)| == |s|
  {
    if |s| > 0 {
      var init := s[..|s| - 1];
      var last := s[|s| - 1];
      assert NoDup(init);
      NoDupCardinality(init);
      assert s == init + [last];
      assert Elems(s) == Elems(init) + {last};
      assert last !in Elems(init);
    }
  }

  /** A recordset with exactly one record holds exactly that id. */
  lemma SingletonRecordset(s: seq<Id>)
    requires NoDup(s) && |s| == 1
    ensures Elems(s) == {s[0]}
  {
  }
}

=== FILE: repository.dfy ===
/**
 * The `fsm.order` table as an ordered store, the search domains this
 * component uses, and record creation with a fresh id. The order of a
 * search result is the order of the store.
 */
module Repository {

  import opened Records

  datatype Store = Store(orders: seq<ServiceOrder>, posts: seq<Post>)

  /** The search domains used on `fsm.order`. */
  datatype Domain =
    | SaleLineIn(lineIds: set<Id>)    // [("sale_line_id", "in", lineIds)]
    | SaleIs(saleId: Id)              // [("sale_id", "=", saleId)]
    | OrderLevelOf(saleIds: set<Id>)  // [("sale_id", "in", saleIds), ("sale_line_id", "=", False)]

  predicate Matches(d: Domain, o: ServiceOrder) {
    match d
    case SaleLineIn(lineIds) => o.saleLineId.Some? && o.saleLineId.value in lineIds
    case SaleIs(saleId) => o.saleId == Some(saleId)
    case OrderLevelOf(saleIds) => o.saleId.Some? && o.saleId.value in saleIds && o.saleLineId.None?
  }

  /** `search(d)`: the records matching `d`, in store order. */
  function Search(orders: seq<ServiceOrder>, d: Domain): (r: seq<ServiceOrder>)
    ensures forall o :: o in r <==> o in orders && Matches(d, o)
    ensures |r| <= |orders|
  {
    if |orders| == 0 then []
    else
      var init := orders[..|orders| - 1];
      var last := orders[|orders| - 1];
      assert orders == init + [last];
      Search(init, d) + (if Matches(d, last) then [last] else [])
  }

  /** Searching a store that grew by one record finds the old hits, then that record if it matches. */
  lemma SearchSnoc(a: seq<ServiceOrder>, x: ServiceOrder, d: Domain)
    ensures Search(a + [x], d) == Search(a, d) + (if Matches(d, x) then [x] else [])
  {
    assert (a + [x])[..|a|] == a;
    assert (a + [x])[|a|] == x;
  }

  /** Searching a store that grew by `b` finds the old hits, then the hits in `b`. */
  lemma {:induction false} SearchAppend(a: seq<ServiceOrder>, b: seq<ServiceOrder>, d: Domain)
    ensures Search(a + b, d) == Search(a, d) + Search(b, d)
    decreases |b|
  {
    if |b| == 0 {
      assert a + b == a;
    } else {
      var b' := b[..|b| - 1];
      var last := b[|b| - 1];
      var hit := if Matches(d, last) then [last] else [];
      SplitLast(b);
      ConcatAssoc(a, b', [last]);
      SearchSnoc(a + b', last, d);
      SearchSnoc(b', last, d);
      SearchAppend(a, b', d);
      ConcatAssoc(Search(a, d), Search(b', d), hit);
    }
  }

  /** When every record matches, the search returns the records unchanged. */
  lemma {:induction false} SearchAllMatch(s: seq<ServiceOrder>, d: Domain)
    requires forall i :: 0 <= i < |s| ==> Matches(d, s[i])
    ensures Search(s, d) == s
  {
    if |s| > 0 {
      var init := s[..|s| - 1];
      var last := s[|s| - 1];
      assert Search(init, d) == init by {
        forall i | 0 <= i < |init|
          ensures Matches(d, init[i])
        {
          assert init[i] == s[i];
        }
        SearchAllMatch(init, d);
      }
      SplitLast(s);
      SearchSnoc(init, last, d);
    }
  }

  /** The `.ids` of a recordset. */
  function Ids(s: seq<ServiceOrder>): (r: seq<Id>)
    ensures |r| == |s|
    ensures forall i :: 0 <= i < |s| ==> r[i] == s[i].id
  {
    seq(|s|, i requires 0 <= i < |s| => s[i].id)
  }

  /** An id is among the hits of a search exactly when a matching record carries it. */
  lemma SearchIds(orders: seq<ServiceOrder>, d: Domain)
    ensures forall id :: id in Ids(Search(orders, d)) <==>
      exists i :: 0 <= i < |orders| && orders[i].id == id && Matches(d, orders[i])
  {
    var hits := Search(orders, d);
    forall id | id in Ids(hits)
      ensures exists i :: 0 <= i < |orders| && orders[i].id == id && Matches(d, orders[i])
    {
      var k :| 0 <= k < |hits| && Ids(hits)[k] == id;
      assert hits[k] in orders;
    }
    forall i | 0 <= i < |orders| && Matches(d, orders[i])
      ensures orders[i].id in Ids(hits)
    {
      assert orders[i] in hits;
      var k :| 0 <= k < |hits| && hits[k] == orders[i];
      assert Ids(hits)[k] == orders[i].id;
    }
  }

  predicate UniqueIds(orders: seq<ServiceOrder>) {
    forall i, j :: 0 <= i < j < |orders| ==> orders[i].id != orders[j].id
  }

  /** Appending a record whose id is above all others keeps ids unique. */
  lemma AppendFresh(orders: seq<ServiceOrder>, o: ServiceOrder)
    requires UniqueIds(orders)
    requires forall i :: 0 <= i < |orders| ==> orders[i].id < o.id
    ensures UniqueIds(orders + [o])
  {
  }

  /** The largest id in the store, 0 when it is empty. */
  function MaxId(orders: seq<ServiceOrder>): Id {
    if |orders| == 0 then 0
    else
      var rest := MaxId(orders[..|orders| - 1]);
      var last := orders[|orders| - 1].id;
      if last > rest then last else rest
  }

  /** No record has an id above `MaxId`. */
  lemma {:induction false} MaxIdIsMax(orders: seq<ServiceOrder>)
    ensures forall i :: 0 <= i < |orders| ==> orders[i].id <= MaxId(orders)
  {
    if |orders| > 0 {
      var init := orders[..|orders| - 1];
      MaxIdIsMax(init);
      assert forall i :: 0 <= i < |init| ==> orders[i] == init[i];
    }
  }

  /** The id the database hands to the next created record. */
  function NextId(st: Store): Id {
    MaxId(st.orders) + 1
  }

  /** The next id is above every id of the store. */
  lemma NextIdIsFresh(st: Store)
    ensures forall i :: 0 <= i < |st.orders| ==> st.orders[i].id < NextId(st)
  {
    MaxIdIsMax(st.orders);
  }

  /** `fsm.order.sudo().create(v)`: appends one record seeded from `v` under a fresh id. */
  function CreateRecord(st: Store, v: FsmValues): (r: (Store, ServiceOrder))
    ensures r.0.orders == st.orders + [r.1]
    ensures r.0.posts == st.posts
    ensures Seeds(r.1, v)
    ensures r.1.id == NextId(st)
  {
    var o := ServiceOrder(
      NextId(st), Some(v.saleId), None, v.locationId, v.locationDirections,
      v.requestEarly, v.scheduledStart, v.todo, v.categoryIds,
      v.scheduledDuration, v.companyId);
    (Store(st.orders + [o], st.posts), o)
  }
}

=== FILE: seed_values.dfy ===
/**
 * The values an order-level field-service order is created with: only
 * lines whose product tracks per sale contribute; their templates are
 * taken once each, in order of first appearance, and aggregated.
 */
module SeedValues {

  import opened Records

  predicate TrackedBySale(l: SaleLine) {
    l.product.Some? && l.product.value.tracking == Sale
  }

  /** The lines, in order, whose product tracking mode is "sale". */
  function SaleTrackedLines(lines: seq<SaleLine>): (r: seq<SaleLine>)
    ensures forall l :: l in r <==> l in lines && TrackedBySale(l)
    ensures |r| <= |lines|
  {
    if |lines| == 0 then []
    else
      var init := lines[..|lines| - 1];
      var last := lines[|lines| - 1];
      assert lines == init + [last];
      SaleTrackedLines(init) + (if TrackedBySale(last) then [last] else [])
  }

  function TemplateOf(l: SaleLine): Option<Template> {
    if l.product.Some? then l.product.value.template else None
  }

  predicate DistinctTemplates(ts: seq<Template>) {
    forall i, j :: 0 <= i < j < |ts| ==> ts[i] != ts[j]
  }

  /**
   * `lines.mapped("product_id.fsm_order_template_id")`: the templates of
   * the lines, without empty ones and without repetition, in order of
   * first appearance.
   */
  function MappedTemplates(lines: seq<SaleLine>): (r: seq<Template>)
    ensures DistinctTemplates(r)
    ensures forall t :: t in r <==> exists l :: l in lines && TemplateOf(l) == Some(t)
  {
    if |lines| == 0 then []
    else
      var init := lines[..|lines| - 1];
      var last := lines[|lines| - 1];
      assert lines == init + [last];
      var prev := MappedTemplates(init);
      match TemplateOf(last)
      case None => prev
      case Some(t) => if t in prev then prev else prev + [t]
  }

  /** `lines[k]` is the first line carrying the template `t`. */
  predicate FirstWith(lines: seq<SaleLine>, t: Template, k: int) {
    && 0 <= k < |lines|
    && TemplateOf(lines[k]) == Some(t)
    && forall j :: 0 <= j < k ==> TemplateOf(lines[j]) != Some(t)
  }

  /** The templates `ts` come in the order of the first lines that carry them. */
  ghost predicate InFirstAppearanceOrder(lines: seq<SaleLine>, ts: seq<Template>) {
    forall i, j, ki, kj :: 0 <= i < j < |ts| && FirstWith(lines, ts[i], ki) && FirstWith(lines, ts[j], kj) ==> ki < kj
  }

  /** The filtered lines of a concatenation are those of each part, in order. */
  lemma {:induction false} SaleTrackedLinesAppend(a: seq<SaleLine>, b: seq<SaleLine>)
    ensures SaleTrackedLines(a + b) == SaleTrackedLines(a) + SaleTrackedLines(b)
    decreases |b|
  {
    if |b| == 0 {
      assert a + b == a;
    } else {
      var b' := b[..|b| - 1];
      var last := b[|b| - 1];
      assert (a + b)[..|a + b| - 1] == a + b';
      assert (a + b)[|a + b| - 1] == last;
      SaleTrackedLinesAppend(a, b');
      var hit := if TrackedBySale(last) then [last] else [];
      ConcatAssoc(SaleTrackedLines(a), SaleTrackedLines(b'), hit);
    }
  }

  /** A single line is kept iff its product tracks per sale. */
  lemma SaleTrackedLinesOfOne(l: SaleLine)
    ensures SaleTrackedLines([l]) == if TrackedBySale(l) then [l] else []
  {
    assert [l][..0] == [];
  }

  /** A template carried by a line before the last has its first line there too. */
  lemma FirstWithInit(lines: seq<SaleLine>, t: Template, k: int, m: nat)
    requires m < |lines| - 1 && TemplateOf(lines[m]) == Some(t)
    requires FirstWith(lines, t, k)
    ensures k < |lines| - 1 && FirstWith(lines[..|lines| - 1], t, k)
  {
    var init := lines[..|lines| - 1];
    assert k <= m;
    forall j | 0 <= j < k
      ensures TemplateOf(init[j]) != Some(t)
    {
      assert init[j] == lines[j];
    }
  }

  /** `mapped` lists the templates in the order of the first lines that carry them. */
  lemma {:induction false} MappedTemplatesOrder(lines: seq<SaleLine>)
    ensures InFirstAppearanceOrder(lines, MappedTemplates(lines))
  {
    if |lines| > 0 {
      var init := lines[..|lines| - 1];
      var last := lines[|lines| - 1];
      var prev := MappedTemplates(init);
      var ts := MappedTemplates(lines);
      MappedTemplatesOrder(init);
      assert ts == prev || (TemplateOf(last).Some? && ts == prev + [TemplateOf(last).value]);
      forall i, j, ki, kj | 0 <= i < j < |ts| && FirstWith(lines, ts[i], ki) && FirstWith(lines, ts[j], kj)
        ensures ki < kj
      {
        assert ts[i] == prev[i] && ts[i] in prev;
        var mi :| 0 <= mi < |init| && TemplateOf(init[mi]) == Some(ts[i]);
        assert init[mi] == lines[mi];
        FirstWithInit(lines, ts[i], ki, mi);
        if j < |prev| {
          assert ts[j] == prev[j] && ts[j] in prev;
          var mj :| 0 <= mj < |init| && TemplateOf(init[mj]) == Some(ts[j]);
          assert init[mj] == lines[mj];
          FirstWithInit(lines, ts[j], kj, mj);
        } else {
          assert ts[j] !in prev;
          assert forall m :: 0 <= m < |init| ==> init[m] in init && TemplateOf(lines[m]) != Some(ts[j]);
        }
      }
    }
  }

  function Instructions(t: Template): string {
    if t.instructions.Some? then t.instructions.value else ""
  }

  /** The instructions of the templates, concatenated in order. */
  function Notes(ts: seq<Template>): string {
    if |ts| == 0 then "" else Notes(ts[..|ts| - 1]) + Instructions(ts[|ts| - 1])
  }

  /** The durations of the templates, summed. */
  function Hours(ts: seq<Template>): real {
    if |ts| == 0 then 0.0 else Hours(ts[..|ts| - 1]) + ts[|ts| - 1].duration
  }

  /** The categories of the templates, united. */
  function Categories(ts: seq<Template>): (r: set<Id>)
    ensures forall c :: c in r <==> exists t :: t in ts && c in t.categoryIds
  {
    if |ts| == 0 then {}
    else
      var init := ts[..|ts| - 1];
      assert ts == init + [ts[|ts| - 1]];
      Categories(init) + ts[|ts| - 1].categoryIds
  }

  /** The distinct templates that seed the order-level service order of `so`. */
  function SeedTemplates(so: SaleOrder): (r: seq<Template>)
    ensures DistinctTemplates(r)
    ensures forall t :: t in r <==> exists l :: l in so.lines && TrackedBySale(l) && TemplateOf(l) == Some(t)
  {
    MappedTemplates(SaleTrackedLines(so.lines))
  }

  /** The seeding templates come in the order of the first tracked lines carrying them. */
  lemma SeedTemplatesOrder(so: SaleOrder)
    ensures InFirstAppearanceOrder(SaleTrackedLines(so.lines), SeedTemplates(so))
  {
    MappedTemplatesOrder(SaleTrackedLines(so.lines));
  }

  /** `_field_create_fsm_order_prepare_values` on the single order `so`. */
  function PrepareValues(so: SaleOrder): (v: FsmValues)
    ensures v.saleId == so.id
    ensures v.companyId == so.companyId
    ensures v.requestEarly == so.expectedDate && v.scheduledStart == so.expectedDate
    ensures so.fsmLocation.None? ==> v.locationId.None? && v.locationDirections.None?
    ensures so.fsmLocation.Some? ==>
      v.locationId == Some(so.fsmLocation.value.id) && v.locationDirections == so.fsmLocation.value.direction
    ensures forall c :: c in v.categoryIds <==>
      exists l :: l in so.lines && TrackedBySale(l) && TemplateOf(l).Some? && c in TemplateOf(l).value.categoryIds
  {
    var templates := SeedTemplates(so);
    var location := so.fsmLocation;
    FsmValues(
      if location.Some? then Some(location.value.id) else None,
      if location.Some? then location.value.direction else None,
      so.expectedDate,
      so.expectedDate,
      Notes(templates),
      Categories(templates),
      Hours(templates),
      so.id,
      so.companyId)
  }

  /** A line whose product does not track per sale leaves the values unchanged. */
  lemma UntrackedLineIgnored(so: SaleOrder, l: SaleLine)
    requires !TrackedBySale(l)
    ensures PrepareValues(so.(lines := so.lines + [l])) == PrepareValues(so)
  {
    assert (so.lines + [l])[..|so.lines|] == so.lines;
    assert SaleTrackedLines(so.lines + [l]) == SaleTrackedLines(so.lines);
  }

  /**
   * A further sale-tracked line whose template is already seeded adds
   * nothing: a template shared by several lines is counted once.
   */
  lemma SharedTemplateCountedOnce(so: SaleOrder, l: SaleLine)
    requires TrackedBySale(l) && TemplateOf(l).Some?
    requires exists l' :: l' in so.lines && TrackedBySale(l') && TemplateOf(l') == TemplateOf(l)
    ensures PrepareValues(so.(lines := so.lines + [l])) == PrepareValues(so)
  {
    var tracked := SaleTrackedLines(so.lines);
    assert SaleTrackedLines(so.lines + [l]) == tracked + [l] by {
      assert (so.lines + [l])[..|so.lines|] == so.lines;
    }
    assert MappedTemplates(tracked + [l]) == MappedTemplates(tracked) by {
      assert (tracked + [l])[..|tracked|] == tracked;
      assert TemplateOf(l).value in MappedTemplates(tracked);
    }
  }

  /** A sale-tracked line whose product has no template leaves the values unchanged. */
  lemma TrackedLineWithoutTemplateIgnored(so: SaleOrder, l: SaleLine)
    requires TrackedBySale(l) && TemplateOf(l).None?
    ensures PrepareValues(so.(lines := so.lines + [l])) == PrepareValues(so)
  {
    var tracked := SaleTrackedLines(so.lines);
    assert SaleTrackedLines(so.lines + [l]) == tracked + [l] by {
      assert (so.lines + [l])[..|so.lines|] == so.lines;
    }
    assert MappedTemplates(tracked + [l]) == MappedTemplates(tracked) by {
      assert (tracked + [l])[..|tracked|] == tracked;
    }
  }

  /** An order without lines gets empty notes, no duration and no category. */
  lemma EmptyOrderValues(so: SaleOrder)
    requires so.lines == []
    ensures PrepareValues(so).todo == ""
    ensures PrepareValues(so).scheduledDuration == 0.0
    ensures PrepareValues(so).categoryIds == {}
  {
  }

  /**
   * A sale-tracked line with a template not seen before appends its
   * instructions to the notes, adds its duration and its categories.
   */
  lemma NewTemplateAggregated(so: SaleOrder, l: SaleLine)
    requires TrackedBySale(l) && TemplateOf(l).Some?
    requires forall l' :: l' in so.lines && TrackedBySale(l') ==> TemplateOf(l') != TemplateOf(l)
    ensures var t := TemplateOf(l).value;
            var before := PrepareValues(so);
            var after := PrepareValues(so.(lines := so.lines + [l]));
            && after.todo == before.todo + Instructions(t)
            && after.scheduledDuration == before.scheduledDuration + t.duration
            && after.categoryIds == before.categoryIds + t.categoryIds
            && after.(todo := before.todo, scheduledDuration := before.scheduledDuration,
                      categoryIds := before.categoryIds) == before
  {
    assert (so.lines + [l])[..|so.lines|] == so.lines;
    var tracked := SaleTrackedLines(so.lines);
    assert SaleTrackedLines(so.lines + [l]) == tracked + [l];
    assert (tracked + [l])[..|tracked|] == tracked;
    var t := TemplateOf(l).value;
    var prev := MappedTemplates(tracked);
    assert t !in prev;
    assert MappedTemplates(tracked + [l]) == prev + [t];
    assert (prev + [t])[..|prev|] == prev;
  }

  /** Two sale-tracked lines with different templates seed exactly those two, in line order. */
  lemma TwoLinesSeedTwoTemplates(so: SaleOrder, p1: Product, p2: Product)
    requires p1.tracking == Sale && p2.tracking == Sale
    requires p1.template.Some? && p2.template.Some? && p1.template != p2.template
    requires so.lines == [SaleLine(1, Some(p1)), SaleLine(2, Some(p2))]
    ensures SeedTemplates(so) == [p1.template.value, p2.template.value]
  {
    var l1 := SaleLine(1, Some(p1));
    var l2 := SaleLine(2, Some(p2));
    assert [l1, l2][..1] == [l1];
    assert SaleTrackedLines(so.lines) == [l1, l2];
    assert MappedTemplates([l1]) == [p1.template.value];
  }

  /** Two service lines with templates of 1.5 and 2.0 hours, instructions "A" and "B". */
  lemma TwoTemplatesExample(so: SaleOrder, p1: Product, p2: Product)
    requires p1.tracking == Sale && p2.tracking == Sale
    requires p1.template == Some(Template(1, Some("A"), 1.5, {10}))
    requires p2.template == Some(Template(2, Some("B"), 2.0, {20}))
    requires so.lines == [SaleLine(1, Some(p1)), SaleLine(2, Some(p2))]
    ensures PrepareValues(so).scheduledDuration == 3.5
    ensures PrepareValues(so).todo == "AB"
    ensures PrepareValues(so).categoryIds == {10, 20}
  {
    var t1 := p1.template.value;
    var t2 := p2.template.value;
    TwoLinesSeedTwoTemplates(so, p1, p2);
    assert [t1, t2][..1] == [t1];
    assert [t1][..0] == [];
    assert Hours([t1]) == 1.5;
    assert Notes([t1]) == "A";
  }
}
